=== FILE: README.md ===
# Got Jokes — a verified model of the grading and joke-keeping core

Got Jokes is a stand-up practice app. A comedian records a joke, and the app
grades the transcript with a local keyword-and-pacing mock. A client for a
remote language model, whose reply is normalised to the same shape, also
exists, but the recording page does not call it. The app then shows a crowd reaction, an animated score and an analytics modal. The joke
can be saved as a draft or published into the app's shared joke list.

This project models that core in Dafny:

- `Types` (`types.dfy`): the records the app passes around. These are the
  four-way reaction, the recording states, the four metrics, the stored
  counts, the verdict (`ClaudeResponse`), the user, the joke and the
  application state.
- `MockGrader` (`mock_grader.dfy`): the local grader `analyzeJoke`.
  - The five rules are kept in priority order: laughs, tomatoes, crickets,
    strong roses, weak roses.
  - Its inputs are the keyword checks on the lower-cased transcript, the
    whitespace word count and the pacing score.
  - It keeps the rounding of the score and the ±5 metric jitter clamped
    to 0–100.
  - Every `Math.random()` call is a `Draws` parameter holding reals in [0, 1).
  - The keyword lists and feedback pools form a `Lexicon`. The rules and
    their lemmas are stated for any lexicon with non-empty pools
    (`AnalyzeJokeWith`). `AnalyzeJoke` applies them to `AppLexicon`, which holds
    the app's own lists, so every lemma holds for it.
- `ClaudeService` (`claude_service.dfy`): the normaliser applied to a
  remote reply, and the error paths of `analyzeJokeWithClaude`.
- `AppContext` (`app_context.dfy`): the initial state and `appReducer`,
  one constructor per action type plus any unrecognised type.
- `ScoreDisplay` and `AnalyticsModal` (`score_display.dfy`,
  `analytics_modal.dfy`): the score colour and label tiers, the rings and
  star burst, the count-up target, the metric bars, the reaction badge and
  emoji, and the modal's render guard.
- `RecordPage` (`record_page.dfy`):
  - `formatTime` with an inverse parser, and its round trip.
  - The global recording-state sync, stopping and grading, the two timer
    steps that reveal the score and then the modal, and the start and
    discard resets.
  - `handleSave` and `handlePublish` as transitions on the application state.
- `JsMath` and `JsText`: the JavaScript behaviour the core relies on.
  - `Math.round`, the clamp, and `%` truncating toward zero.
  - `toLowerCase`, `includes` and `split(/\s+/)` with the whitespace set of
    JavaScript's `\s`.
  - `length` in UTF-16 code units, `toString`, `padStart`, and the
    truthiness of `||`.

## Model

| member | source | states |
|---|---|---|
| Types.ReactionOf | src/types/index.ts:41-47 | A reaction tag maps to a reaction only for one of the four names, and each reaction's name maps back to it |
| Types.ReactionOfName | src/types/index.ts:42 | The four reaction names are read back as the reaction they name |
| Types.NameInjective | src/types/index.ts:42 | Different reactions have different tags |
| JsMath.Round | src/utils/mockClaudeResponses.ts:112 | `Math.round` gives the integer n with n − 0.5 ≤ x < n + 0.5 |
| JsMath.RoundUnique | src/utils/mockClaudeResponses.ts:112 | That integer is unique, so rounding is determined by the half-open interval |
| JsMath.RoundMonotone | src/utils/mockClaudeResponses.ts:112 | Rounding preserves order |
| JsMath.RoundWithin | src/utils/mockClaudeResponses.ts:84-112 | A value between two integers rounds to a value between them, which keeps each score band closed after rounding |
| JsMath.ClampPercent | src/utils/claudeService.ts:94 | `max(0, min(100, x))` lies in 0–100, is the identity inside, and is 0 below and 100 above |
| JsMath.ClampPercentContracts | src/utils/claudeService.ts:94 | Clamping never moves a value further from any point of 0–100 |
| JsMath.JsRemainder | src/pages/RecordPage.tsx:95 | For a positive divisor only, JavaScript `%` differs from the dividend by a multiple of the divisor, is smaller than it in magnitude, and takes the dividend's sign |
| JsText.Utf16Length | src/utils/mockClaudeResponses.ts:92 | `length` counts UTF-16 code units: one for a character up to U+FFFF and two above it, between one and two per character overall |
| JsText.Utf16LengthAppend | src/utils/mockClaudeResponses.ts:92 | The `length` of a concatenation is the sum of the parts' lengths, so together with the one-character case it fixes `length` on every text |
| JsText.Utf16LengthOfBmp | src/utils/mockClaudeResponses.ts:92 | For text within the Basic Multilingual Plane, `length` is the character count |
| JsText.ToLower | src/utils/mockClaudeResponses.ts:64 | `toLowerCase` leaves no ASCII capital and never shortens the text. A single character lowers to its own lower-case form. In text without U+0130 the length is kept and each position holds the lower-case form of the same position: A–Z become a–z, the Kelvin sign becomes k, and every other character stays |
| JsText.ToLowerAppend | src/utils/mockClaudeResponses.ts:64 | Lower-casing works character by character, so it distributes over concatenation |
| JsText.ToLowerIdempotent | src/utils/mockClaudeResponses.ts:64 | Lower-casing twice equals lower-casing once |
| JsText.ToLowerIgnoresAsciiCase | src/utils/mockClaudeResponses.ts:64-68 | Upper-casing ASCII letters first does not change the lower-cased text |
| JsText.Utf16LengthIgnoresAsciiCase | src/utils/mockClaudeResponses.ts:92 | Changing ASCII case does not change `length` |
| JsText.ContainsIff | src/utils/mockClaudeResponses.ts:67-68 | `includes` holds exactly when the keyword occurs at some index |
| JsText.SkipWs | src/utils/mockClaudeResponses.ts:71 | A whitespace run ends at the next non-whitespace character or at the end |
| JsText.SplitFrom | src/utils/mockClaudeResponses.ts:71 | Splitting on `\s+` gives at least one field and no field holds whitespace |
| JsText.SplitFromCount | src/utils/mockClaudeResponses.ts:71 | From a run boundary, the number of fields is the number of whitespace runs ahead plus one |
| JsText.SplitCount | src/utils/mockClaudeResponses.ts:71 | `split(/\s+/).length` equals the number of maximal whitespace runs plus one, with leading and trailing runs included |
| JsText.RunsFromSameShape | src/utils/mockClaudeResponses.ts:71 | Texts with whitespace at the same positions have the same word count |
| JsText.NatToString | src/pages/RecordPage.tsx:96 | `toString` of a natural number gives decimal digits, with no leading zero, that parse back to the number |
| JsText.IntToString | src/pages/RecordPage.tsx:103 | `toString` of an integer is a minus sign for negatives followed by the digits of its magnitude, with no leading zero in either case |
| JsText.PadStart | src/pages/RecordPage.tsx:96 | `padStart` keeps the text as a suffix, fills only the front with the fill character, and reaches the width when shorter |
| JsText.OrUndefined | src/utils/claudeService.ts:96 | `x \|\| undefined` is present exactly when x is truthy, that is a non-empty string, and is then x itself |
| MockGrader.Pick | src/utils/mockClaudeResponses.ts:85 | `pool[floor(random · length)]` always lands in the pool |
| MockGrader.PickReaches | src/utils/mockClaudeResponses.ts:85 | Every entry of a pool is picked by some draw |
| MockGrader.Jitter | src/utils/mockClaudeResponses.ts:5-8 | One jittered metric lies in 0–100 and within 5 of an in-range base |
| MockGrader.GenerateMetrics | src/utils/mockClaudeResponses.ts:4-13 | All four metrics lie in 0–100 and within 5 of an in-range base score |
| MockGrader.GenerateMetricsUnclamped | src/utils/mockClaudeResponses.ts:4-13 | For a base in 5–95 the clamp never bites, and each metric is base + 10·r − 5 |
| MockGrader.WordCount | src/utils/mockClaudeResponses.ts:71 | The word count is the number of whitespace runs plus one, so at least 1, even for an empty transcript |
| MockGrader.PacingScore | src/utils/mockClaudeResponses.ts:72-73 | The pacing score lies in 0–100. It is 100 exactly at 2.5 words per second of duration, above 70 exactly when the word count is within 15 of that, and 0 exactly when it is 50 or more away |
| MockGrader.PacingMonotone | src/utils/mockClaudeResponses.ts:72-73 | A word count farther from 2.5 words per second never gets a higher pacing score |
| MockGrader.HasKeywordIff | src/utils/mockClaudeResponses.ts:67-68 | `keywords.some(k => text.includes(k))` holds exactly when some keyword occurs at some index of the text |
| MockGrader.Classify | src/utils/mockClaudeResponses.ts:64-73 | The signals the rules read: word count, pacing in 0–100 that is above 70 exactly when the word count is within 15 of 2.5 words per second, and a `length` of at least the character count |
| MockGrader.ClassifyIgnoresAsciiCase | src/utils/mockClaudeResponses.ts:64-73 | ASCII case changes none of the signals |
| MockGrader.Decide | src/utils/mockClaudeResponses.ts:81-109 | Each rule, in priority order, gives its reaction, its feedback pool, its suggestion or none, and its unrounded score band of width 20 |
| MockGrader.DecideCoversBand | src/utils/mockClaudeResponses.ts:84-107 | Every score in the chosen rule's band is reached by some draw |
| MockGrader.AnalyzeJokeWith | src/utils/mockClaudeResponses.ts:63-124 | For any lexicon with non-empty pools, the verdict has one of the four reactions and an integral score in 0–100, and its metrics lie in 0–100 within 5 of the score |
| MockGrader.AnalyzeJoke | src/utils/mockClaudeResponses.ts:16-124 | With the app's own word lists and lines, the verdict has one of the four reactions and an integral score in 0–100, and its metrics lie in 0–100 within 5 of the score |
| MockGrader.AnalyzeJokeBands | src/utils/mockClaudeResponses.ts:81-112 | Positive-only gives laughs at 80–100 with no tip. Negative-only gives tomatoes at 10–30 with a tip. A tie under 20 code units gives crickets at 20–40 with the fixed too-short texts. Any other tie gives roses at 40–80 |
| MockGrader.AnalyzeJokeReactionIff | src/utils/mockClaudeResponses.ts:81-109 | Each reaction occurs exactly when its rule fires, in both directions |
| MockGrader.AnalyzeJokeSuggestionIff | src/utils/mockClaudeResponses.ts:81-109 | There is no suggestion exactly for laughs and for roses with pacing above 70 |
| MockGrader.AnalyzeJokeRosesSplit | src/utils/mockClaudeResponses.ts:98-108 | Pacing above 70 gives roses at 60–80 with good feedback. Otherwise roses come at 40–60 with mixed feedback and a suggestion |
| MockGrader.AnalyzeJokeLines | src/utils/mockClaudeResponses.ts:20-109 | The feedback comes from the pool its reaction calls for: great-joke lines for laughs, poor-joke lines for tomatoes, good or mixed lines for roses, and the too-short line for crickets. A suggestion always comes from the suggestion pool or is the too-short tip |
| MockGrader.AnalyzeJokeIgnoresAsciiCase | src/utils/mockClaudeResponses.ts:64-68 | The verdict does not depend on the ASCII case of the transcript |
| ClaudeService.NumberOr | src/utils/claudeService.ts:98-101 | `x \|\| 50` keeps a present non-zero number and otherwise falls back |
| ClaudeService.MetricsFromRemote | src/utils/claudeService.ts:11-23 | delivery, timing, originality and relatability become stutterScore, quickWit, creativity and punchlineImpact, in that order |
| ClaudeService.MetricField | src/utils/claudeService.ts:97-102 | A metric read from the reply is never 0, and is 50 when the reply has no metrics object |
| ClaudeService.Normalise | src/utils/claudeService.ts:92-103 | The reaction passes through unchecked. The score is the rounded clamp: integral, in 0–100, and the clamped value c satisfies score − 0.5 ≤ c < score + 0.5, so halves round up. Feedback is never empty and falls back to the placeholder. A suggestion is present exactly when truthy |
| ClaudeService.NormaliseMetrics | src/utils/claudeService.ts:97-102 | Each metric is the reply's value when that is truthy and 50 otherwise |
| ClaudeService.NormaliseZeroAndOutOfRange | src/utils/claudeService.ts:97-102 | For every reply and field, an explicit 0 lands as 50 just like a missing field, any other value lands unchanged, and one value outside 0–100 leaves the verdict's metrics out of range |
| ClaudeService.AnalyzeJokeWithClaude | src/utils/claudeService.ts:82-108 | The call succeeds exactly when the reply's first block is non-empty text that parses. The result is then the normalised reply, and every failure is rethrown with no fallback |
| AppContext.Initial | src/contexts/AppContext.tsx:22-28 | The app starts with no user, no current joke, no jokes, not recording and idle |
| AppContext.ApplyPatch | src/contexts/AppContext.tsx:52 | For each of the ten fields, the result takes the patch's value when the patch supplies it and keeps the joke's value otherwise, so an empty patch is the identity |
| AppContext.ApplyPatchIdempotent | src/contexts/AppContext.tsx:52 | Applying a patch twice equals applying it once |
| AppContext.PatchWhere | src/contexts/AppContext.tsx:47-55 | Update keeps the list length, patches every joke with the id, and leaves every other joke unchanged |
| AppContext.RemoveWhere | src/contexts/AppContext.tsx:56-60 | Delete keeps exactly the jokes without the id and shrinks the list exactly when one had it |
| AppContext.RemoveWhereAppend | src/contexts/AppContext.tsx:59 | Filtering distributes over concatenation |
| AppContext.Reduce | src/contexts/AppContext.tsx:30-70 | Each action changes only its own field. The avatar update is a no-op without a user and otherwise sets `customAvatar` to the truthy payload. An unknown action returns the state unchanged |
| AppContext.UpdateJokeIdempotent | src/contexts/AppContext.tsx:47-55 | Dispatching the same update twice equals dispatching it once |
| AppContext.DeleteJokeIdempotent | src/contexts/AppContext.tsx:56-60 | Dispatching the same delete twice equals dispatching it once |
| AppContext.AddThenDelete | src/contexts/AppContext.tsx:45-60 | Adding a joke with a fresh id and then deleting that id restores the state |
| ScoreDisplay.ScoreColor | src/components/Reactions/ScoreDisplay.tsx:27-32 | The colour tiers are red below 40, yellow from 40, blue from 60 and green from 80 |
| ScoreDisplay.ScoreColorMonotone | src/components/Reactions/ScoreDisplay.tsx:27-32 | A higher score never gets a lower colour tier |
| ScoreDisplay.ScoreLabel | src/components/Reactions/ScoreDisplay.tsx:35-44 | The eight labels occupy 10-point tiers from below 30 up to 90 and above |
| ScoreDisplay.LabelTextInjective | src/components/Reactions/ScoreDisplay.tsx:35-44 | Different tiers show different label texts |
| ScoreDisplay.ScoreLabelMonotone | src/components/Reactions/ScoreDisplay.tsx:35-44 | A higher score never gets a lower label |
| ScoreDisplay.ScoreLabelEnds | src/components/Reactions/ScoreDisplay.tsx:36-43 | LEGENDARY! is shown exactly from 90, and TOUGH CROWD exactly below 30 |
| ScoreDisplay.GlowOfTier | src/components/Reactions/ScoreDisplay.tsx:27-44 | The two top labels are the green tier and the two bottom labels are the red tier |
| ScoreDisplay.ColorFollowsLabel | src/components/Reactions/ScoreDisplay.tsx:27-44 | The colour is a function of the label: the label's tier determines it |
| ScoreDisplay.ShowRings | src/components/Reactions/ScoreDisplay.tsx:69-76 | The rings show exactly for a visible score in the blue or green colour tier |
| ScoreDisplay.ShowStarBurst | src/components/Reactions/ScoreDisplay.tsx:77-91 | The star burst shows exactly for a visible score in the green colour tier, and never without the rings |
| ScoreDisplay.StarBurst | src/components/Reactions/ScoreDisplay.tsx:79-88 | Eight stars, each rotated 45° and delayed 0.1 s more than the one before, with the turn closing at 360° |
| ScoreDisplay.StarBurstDistinct | src/components/Reactions/ScoreDisplay.tsx:79-88 | The stars' rotations are distinct and lie in one turn |
| ScoreDisplay.CountUpTarget | src/components/Reactions/ScoreDisplay.tsx:12 | The counter animates to the score while visible and to 0 otherwise |
| ScoreDisplay.SettledNumber | src/components/Reactions/ScoreDisplay.tsx:12 | The settled counter is the floor of its target, which is the score itself for an integral visible score |
| AnalyticsModal.BarColorOf | src/components/Analytics/AnalyticsModal.tsx:29-34 | A bar is green exactly from 80 and red exactly below 40 |
| AnalyticsModal.BarColorMatchesScoreColor | src/components/Analytics/AnalyticsModal.tsx:29-34 | The bar colours use the same thresholds as the score colours |
| AnalyticsModal.DisplayedPercent | src/components/Analytics/AnalyticsModal.tsx:43 | The shown percentage n satisfies n − 0.5 ≤ value < n + 0.5, so halves round up, and lies in 0–100 for an in-range value |
| AnalyticsModal.BadgeOf | src/components/Analytics/AnalyticsModal.tsx:110-115 | The badge is green exactly for laughs, blue exactly for roses, red exactly for tomatoes, and gray exactly for any other tag, crickets included |
| AnalyticsModal.Emojis | src/components/Analytics/AnalyticsModal.tsx:116-120 | At most one emoji shows: the named reaction's own emoji, or none for an unknown tag |
| AnalyticsModal.EmojiInjective | src/components/Analytics/AnalyticsModal.tsx:116-120 | Different reactions show different emoji |
| AnalyticsModal.Bars | src/components/Analytics/AnalyticsModal.tsx:128-148 | The bars are Delivery, Quick Wit, Creativity and Punchline Impact, in that order, showing stutterScore, quickWit, creativity and punchlineImpact, with in-range metrics shown at 0–100 |
| AnalyticsModal.Render | src/components/Analytics/AnalyticsModal.tsx:75-170 | The modal renders exactly when it is open and has metrics and a verdict. It then shows the verdict's score and feedback, the badge and emoji of the verdict's reaction, and the bars of the metrics passed in. The tip shows exactly for a truthy suggestion, and the player shows exactly for a truthy audio URL and plays that URL |
| RecordPage.Minutes | src/pages/RecordPage.tsx:94 | `Math.floor(seconds / 60)` is the m with 60m ≤ seconds < 60m + 60 |
| RecordPage.Seconds | src/pages/RecordPage.tsx:95 | For non-negative input, `seconds % 60` is in 0–59 and recombines with the minutes to the input |
| RecordPage.MinuteField | src/pages/RecordPage.tsx:94-96 | The minutes are printed as digits that parse back to the minutes |
| RecordPage.SecondField | src/pages/RecordPage.tsx:95-96 | The seconds are printed as exactly two digits that parse back to the seconds |
| RecordPage.ParseTime | src/pages/RecordPage.tsx:93-97 | The inverse of `formatTime` yields only non-negative durations |
| RecordPage.ParseTimeOfParts | src/pages/RecordPage.tsx:96 | An `m:ss` text parses back to 60·m + ss |
| RecordPage.FormatTime | src/pages/RecordPage.tsx:93-97 | `formatTime` loses nothing: parsing its output gives back every non-negative number of seconds |
| RecordPage.SyncRecording | src/pages/RecordPage.tsx:39-45 | The global flag follows the recorder, the recording state becomes 'recording' or 'idle' to match, and nothing else changes |
| RecordPage.FinishRecording | src/pages/RecordPage.tsx:47-72 | Stopping marks the global state 'processing' and changes nothing else there. The verdict is exactly the local grader's answer for the transcript and the recording length. Processing ends, the reaction shows, and the score and modal flags are untouched |
| RecordPage.RevealScore | src/pages/RecordPage.tsx:73-74 | The first timer shows the score and changes nothing else |
| RecordPage.RevealAnalytics | src/pages/RecordPage.tsx:75-80 | The second timer hides the reaction and score, opens the modal, and marks the global state 'complete', changing nothing else |
| RecordPage.Modal | src/pages/RecordPage.tsx:245-255 | The modal mounted by the page renders exactly when `showAnalytics` is set and there is a verdict. It then shows that verdict's score, feedback and badge, the bars of its metrics, and the player exactly for a truthy recording URL, playing that URL |
| RecordPage.CloseModal | src/pages/RecordPage.tsx:248 | Closing only clears the modal flag, so the modal disappears and the verdict stays |
| RecordPage.StopSequenceShowsVerdict | src/pages/RecordPage.tsx:47-81 | After stopping and both timers, the state is 'complete' and the modal renders the score of the verdict that grading produced |
| RecordPage.StartRecording | src/pages/RecordPage.tsx:82-89 | Starting clears the transcript, the verdict and every overlay |
| RecordPage.Discard | src/pages/RecordPage.tsx:151-157 | Discarding clears the transcript, verdict, score and modal, and leaves the reaction overlay as it was |
| RecordPage.CountsFor | src/pages/RecordPage.tsx:112-118 | Each count is 1 exactly when the reaction matches it and 0 otherwise. Feedback and suggestion are copied unchanged |
| RecordPage.CountsAtMostOne | src/pages/RecordPage.tsx:112-118 | At most one count is set. A known reaction sets exactly one unless it is crickets, which sets none |
| RecordPage.BuildJoke | src/pages/RecordPage.tsx:102-119 | The joke copies the transcript, the recording length, the audio URL or "", the verdict's metrics, feedback and suggestion, and the user's id or "". Its counts are exactly those of the reaction (1 for the matching count and 0 for the others, all 0 for crickets), its id is the millisecond clock as text, its creation time is the second clock reading, and its title is "Joke from " and the date |
| RecordPage.CanKeep | src/pages/RecordPage.tsx:100 | The guard `!audioBlob \|\| !claudeResponse` of both handlers, negated: there is an audio blob and a verdict |
| RecordPage.KeepingNeedsAudioAndVerdict | src/pages/RecordPage.tsx:99-149 | Saving and publishing change the state exactly when there is audio and a verdict |
| RecordPage.Save | src/pages/RecordPage.tsx:99-123 | Without audio or a verdict nothing changes. Otherwise one unpublished joke built field by field from the page, the verdict, the user and the clock readings is appended, and nothing else changes |
| RecordPage.Publish | src/pages/RecordPage.tsx:125-149 | As for saving, with the same field-by-field joke, except that the appended joke is published |
| RecordPage.SaveAndPublishDifferOnlyInFlag | src/pages/RecordPage.tsx:99-149 | Saving and publishing append the same joke apart from the published flag |
| RecordPage.NothingToKeepAfterStart | src/pages/RecordPage.tsx:82-89 | After a new recording starts, saving and publishing change nothing |
| RecordPage.KeptLocalVerdict | src/pages/RecordPage.tsx:47-123 | A joke kept from a local verdict has metrics in 0–100, and it has exactly one count unless the crowd answered with crickets |

## Left out

- Network, SDK and configuration:
  - The SDK client and the API key from the environment are not modelled.
  - The prompt text is not modelled, including its word count.
  - `AnalyzeJokeWithClaude` takes the SDK's outcome and `JSON.parse` as parameters.
- Parsing failures and untyped JSON: the parsed reply is a typed record (`Parsed`), so several JSON shapes the code accepts have no counterpart:
  - A `JSON.parse` result that is not an object is modelled only as a parse failure.
  - `score` is a real number. In the code, `null` clamps to 0 and a numeric string such as "85" is converted to a number, while a missing `score` or a non-numeric string makes `Math.round` return NaN. None of these cases is modelled.
  - A missing `reaction` would pass through as `undefined`. The model's `reaction` is always a string.
  - A truthy `feedback` or `suggestion` that is not a string would pass through unchanged. The model has only strings there.
  - A metric that is a non-empty string would pass through `|| 50` as a string. The model's metrics are numbers.
- Floating point: numbers are exact reals. The `2.5` words-per-second product and the `±5` jitter are exact, and rounding-error cases are not modelled.
- Randomness and timers:
  - `Math.random()` is an explicit draw parameter.
  - The 1–2 second delay before the mock grader answers is not modelled.
  - The two 2-second `setTimeout` steps are modelled as separate steps (`RevealScore`, `RevealAnalytics`). Their timing, and interleavings with a new recording started before they fire, are not modelled.
  - Each handler reads the clock three times: `Date.now()` for the id, `new Date().toLocaleDateString()` for the title and `new Date()` for the creation time (src/pages/RecordPage.tsx:103-109 and :129-135). `Stamps` takes these as three independent readings, so nothing relates them.
  - The brief `isProcessing = true` between stopping and the mock's answer is not modelled, since the mock is modelled as answering at once.
- Speech recognition and the transcript:
  - Speech recognition, audio capture and sound effects are not modelled.
  - The playback of the recording when a recording stops (src/pages/RecordPage.tsx:67-70) is not modelled. It has no effect on the page or application state.
  - The `useAudioRecording` hook is not part of this model. `Recorder` stands for its output, with the elapsed recording time in whole seconds.
  - The page grades a fixed demo sentence in place of a transcription. `FinishRecording` takes the transcript as a parameter, so the property holds for that sentence as for any other.
- Rendering:
  - Styling, spring animations, icons, navigation after saving, and `localStorage` persistence of the user are not modelled.
  - The star burst, rings and counter are modelled only as data: which stars show, and the counter's target.
- `JsText.ToLower`: only characters whose lower case contains an ASCII letter are mapped. These are A–Z, the Kelvin sign and the dotted capital I. Every other character is kept as it is. This is enough for the ASCII keywords: no other character lowers to an ASCII letter. It is not the full Unicode case mapping.
- `AppContext.ApplyPatch`: a patch either supplies a field or leaves it out. An explicit `undefined` inside a partial joke, which would clear the field, is not modelled.
- `AppContext.Reduce`: the reducer writes `customAvatar` onto the user, but the `User` type (src/types/index.ts:1-11) has no such field. The model's `User` carries it as an extra optional field so that the update has somewhere to go.
- Strings are sequences of Unicode scalar values. A JavaScript string holding a lone surrogate cannot be represented, so `length` and `toLowerCase` are modelled only for well-formed text.
- `ClaudeService.AnalyzeJokeWithClaude`: the catch block's comment promises a fallback response, but the code rethrows the error (src/utils/claudeService.ts:104-108). The model follows the code, so no fallback to the local grader is modelled. The `console.error` logging in that catch block (src/utils/claudeService.ts:105) is output only and is not modelled.
- `ClaudeService.Normalise`: the reaction string is passed through unchecked, as in the source. A reply with a fifth tag is possible, and `AnalyticsModal` then shows it with a gray badge.

=== FILE: analytics_modal.dfy ===
/** The analytics modal shown after a performance: overall score, a reaction
    badge, four metric bars, the feedback line and an optional tip. */
module AnalyticsModal {
  import opened Wrappers
  import opened JsMath
  import opened JsText
  import opened Types
  import ScoreDisplay

  /** The four bar gradients. */
  datatype BarColor = GreenBar | BlueBar | YellowBar | RedBar

  /** `getBarColor`. */
  function BarColorOf(value: real): (c: BarColor)
    ensures c == GreenBar <==> value >= 80.0
    ensures c == RedBar <==> value < 40.0
  {
    if value >= 80.0 then GreenBar
    else if value >= 60.0 then BlueBar
    else if value >= 40.0 then YellowBar
    else RedBar
  }

  /** The bar colour of a metric follows the same bands as the score glow. */
  lemma BarColorMatchesScoreColor(value: real)
    ensures BarColorOf(value) == match ScoreDisplay.ScoreColor(value)
      case GreenGlow => GreenBar
      case BlueGlow => BlueBar
      case YellowGlow => YellowBar
      case RedGlow => RedBar
  {
  }

  /** The percentage printed beside a bar: `Math.round(value)`. */
  function DisplayedPercent(value: real): (n: int)
    ensures n as real - 0.5 <= value < n as real + 0.5
    ensures InPercentRange(value) ==> 0 <= n <= 100
  {
    RoundWithin(ClampPercent(value), 0, 100);
    Round(value)
  }

  /** The four badge styles. */
  datatype Badge = GreenBadge | BlueBadge | RedBadge | GrayBadge

  /** The badge for a reaction tag; anything but laughs, roses and tomatoes is gray. */
  function BadgeOf(tag: string): (b: Badge)
    ensures b == GreenBadge <==> tag == "laughs"
    ensures b == BlueBadge <==> tag == "roses"
    ensures b == RedBadge <==> tag == "tomatoes"
    ensures b == GrayBadge <==> tag !in {"laughs", "roses", "tomatoes"}
  {
    if tag == "laughs" then GreenBadge
    else if tag == "roses" then BlueBadge
    else if tag == "tomatoes" then RedBadge
    else GrayBadge
  }

  function Emoji(r: Reaction): string {
    match r
    case Laughs => "😂"
    case Roses => "🌹"
    case Tomatoes => "🍅"
    case Crickets => "🦗"
  }

  /** The emoji slot: four `tag === name && emoji` fragments, each rendering
      nothing when false. */
  function Emojis(tag: string): (shown: seq<string>)
    ensures |shown| <= 1
    ensures ReactionOf(tag).Some? ==> shown == [Emoji(ReactionOf(tag).value)]
    ensures ReactionOf(tag).None? ==> shown == []
  {
    (if tag == "laughs" then [Emoji(Laughs)] else [])
    + (if tag == "roses" then [Emoji(Roses)] else [])
    + (if tag == "tomatoes" then [Emoji(Tomatoes)] else [])
    + (if tag == "crickets" then [Emoji(Crickets)] else [])
  }

  /** Distinct reactions have distinct emojis. */
  lemma EmojiInjective(a: Reaction, b: Reaction)
    ensures Emoji(a) == Emoji(b) ==> a == b
  {
  }

  /** One metric bar. */
  datatype Bar = Bar(name: string, value: real, icon: string)

  /** The four bars, in display order. */
  function Bars(m: JokeMetrics): (bars: seq<Bar>)
    ensures |bars| == 4
    ensures [bars[0].name, bars[1].name, bars[2].name, bars[3].name]
            == ["Delivery", "Quick Wit", "Creativity", "Punchline Impact"]
    ensures [bars[0].value, bars[1].value, bars[2].value, bars[3].value]
            == [m.stutterScore, m.quickWit, m.creativity, m.punchlineImpact]
    ensures MetricsInRange(m) ==> forall i :: 0 <= i < 4 ==> 0 <= DisplayedPercent(bars[i].value) <= 100
  {
    [ Bar("Delivery", m.stutterScore, "🎯"),
      Bar("Quick Wit", m.quickWit, "⚡"),
      Bar("Creativity", m.creativity, "✨"),
      Bar("Punchline Impact", m.punchlineImpact, "💥") ]
  }

  /** Everything the open modal shows. */
  datatype View = View(
    score: real,
    badge: Badge,
    emojis: seq<string>,
    caption: string,
    bars: seq<Bar>,
    feedback: string,
    tip: Option<string>,
    audio: Option<string>)

  /** The modal: nothing unless it is open and has both metrics and a verdict. */
  function Render(
    isOpen: bool,
    metrics: Option<JokeMetrics>,
    response: Option<ClaudeResponse>,
    audioUrl: Option<string>): (v: Option<View>)
    ensures v.None? <==> !isOpen || metrics.None? || response.None?
    ensures v.Some? ==>
      && v.value.score == response.value.score
      && v.value.caption == response.value.reaction
      && v.value.feedback == response.value.feedback
      && v.value.bars == Bars(metrics.value)
      && v.value.badge == BadgeOf(response.value.reaction)
      && v.value.emojis == Emojis(response.value.reaction)
      && (v.value.tip.Some? <==> Truthy(response.value.suggestion))
      && (v.value.tip.Some? ==> v.value.tip == response.value.suggestion)
      && (v.value.audio.Some? <==> Truthy(audioUrl))
      && (v.value.audio.Some? ==> v.value.audio == audioUrl)
  {
    if !isOpen || metrics.None? || response.None? then None
    else
      var r := response.value;
      Some(View(
        r.score,
        BadgeOf(r.reaction),
        Emojis(r.reaction),
        r.reaction,
        Bars(metrics.value),
        r.feedback,
        OrUndefined(r.suggestion),
        OrUndefined(audioUrl)))
  }
}

=== FILE: app_context.dfy ===
/** The global state machine: nine actions over the user, the current joke,
    the joke list and the recording flags. */
module AppContext {
  import opened Wrappers
  import opened JsText
  import opened Types

  /** A partial joke: each present field overrides the joke's own. */
  datatype JokePatch = JokePatch(
    id: Option<string>,
    userId: Option<string>,
    title: Option<string>,
    audioBlob: Option<string>,
    transcript: Option<string>,
    duration: Option<int>,
    createdAt: Option<int>,
    published: Option<bool>,
    metrics: Option<JokeMetrics>,
    reactions: Option<Reactions>)

  /** The patch that sets nothing. */
  const EmptyPatch: JokePatch :=
    JokePatch(None, None, None, None, None, None, None, None, None, None)

  /** The dispatched actions. `Unrecognised` stands for an action object whose
      type tag is none of the nine. */
  datatype Action =
    | SetUser(user: Option<User>)
    | UpdateUserAvatar(avatar: Option<string>)
    | SetCurrentJoke(joke: Option<Joke>)
    | AddJoke(added: Joke)
    | UpdateJoke(targetId: string, patch: JokePatch)
    | DeleteJoke(deletedId: string)
    | SetRecording(recording: bool)
    | SetRecordingState(recordingState: RecordingState)
    | LoadJokes(loaded: seq<Joke>)
    | Unrecognised(tag: string)

  /** The state before anything is dispatched. */
  function Initial(): (s: AppState)
    ensures s.user.None? && s.currentJoke.None?
    ensures |s.jokes| == 0
    ensures !s.isRecording && s.recordingState == Idle
  {
    AppState(None, None, [], false, Idle)
  }

  /** A spread field: the patch's value when it supplies one, the old value otherwise. */
  predicate Spread<T(==)>(supplied: Option<T>, before: T, after: T) {
    && (supplied.Some? ==> after == supplied.value)
    && (supplied.None? ==> after == before)
  }

  /** `{ ...joke, ...patch }`. */
  function ApplyPatch(j: Joke, p: JokePatch): (r: Joke)
    ensures p == EmptyPatch ==> r == j
    ensures Spread(p.id, j.id, r.id) && Spread(p.userId, j.userId, r.userId)
    ensures Spread(p.title, j.title, r.title) && Spread(p.audioBlob, j.audioBlob, r.audioBlob)
    ensures Spread(p.transcript, j.transcript, r.transcript) && Spread(p.duration, j.duration, r.duration)
    ensures Spread(p.createdAt, j.createdAt, r.createdAt) && Spread(p.published, j.published, r.published)
    ensures Spread(p.metrics, j.metrics, r.metrics) && Spread(p.reactions, j.reactions, r.reactions)
  {
    Joke(
      p.id.GetOr(j.id),
      p.userId.GetOr(j.userId),
      p.title.GetOr(j.title),
      p.audioBlob.GetOr(j.audioBlob),
      p.transcript.GetOr(j.transcript),
      p.duration.GetOr(j.duration),
      p.createdAt.GetOr(j.createdAt),
      p.published.GetOr(j.published),
      p.metrics.GetOr(j.metrics),
      p.reactions.GetOr(j.reactions))
  }

  /** Applying the same patch twice is applying it once. */
  lemma ApplyPatchIdempotent(j: Joke, p: JokePatch)
    ensures ApplyPatch(ApplyPatch(j, p), p) == ApplyPatch(j, p)
  {
  }

  /** `jokes.map(j => j.id === id ? { ...j, ...patch } : j)`. */
  function PatchWhere(jokes: seq<Joke>, id: string, p: JokePatch): (r: seq<Joke>)
    ensures |r| == |jokes|
    ensures forall i :: 0 <= i < |jokes| && jokes[i].id != id ==> r[i] == jokes[i]
    ensures forall i :: 0 <= i < |jokes| && jokes[i].id == id ==> r[i] == ApplyPatch(jokes[i], p)
  {
    if |jokes| == 0 then []
    else [if jokes[0].id == id then ApplyPatch(jokes[0], p) else jokes[0]] + PatchWhere(jokes[1..], id, p)
  }

  /** `jokes.filter(j => j.id !== id)`. */
  function RemoveWhere(jokes: seq<Joke>, id: string): (r: seq<Joke>)
    ensures |r| <= |jokes|
    ensures forall k :: 0 <= k < |r| ==> r[k].id != id && r[k] in jokes
    ensures forall k :: 0 <= k < |jokes| && jokes[k].id != id ==> jokes[k] in r
    ensures (forall k :: 0 <= k < |jokes| ==> jokes[k].id != id) ==> r == jokes
    ensures (exists k :: 0 <= k < |jokes| && jokes[k].id == id) ==> |r| < |jokes|
  {
    if |jokes| == 0 then []
    else if jokes[0].id == id then RemoveWhere(jokes[1..], id)
    else [jokes[0]] + RemoveWhere(jokes[1..], id)
  }

  /** Removal keeps the order of the survivors: it works piece by piece. */
  lemma {:induction false} RemoveWhereAppend(a: seq<Joke>, b: seq<Joke>, id: string)
    ensures RemoveWhere(a + b, id) == RemoveWhere(a, id) + RemoveWhere(b, id)
  {
    if |a| == 0 {
      assert a + b == b;
    } else {
      assert (a + b)[1..] == a[1..] + b;
      RemoveWhereAppend(a[1..], b, id);
    }
  }

  /** The reducer. */
  function Reduce(s: AppState, a: Action): (t: AppState)
    // nothing but the fields an action names ever changes
    ensures !a.SetUser? && !a.UpdateUserAvatar? ==> t.user == s.user
    ensures !a.SetCurrentJoke? ==> t.currentJoke == s.currentJoke
    ensures !(a.AddJoke? || a.UpdateJoke? || a.DeleteJoke? || a.LoadJokes?) ==> t.jokes == s.jokes
    ensures !a.SetRecording? ==> t.isRecording == s.isRecording
    ensures !a.SetRecordingState? ==> t.recordingState == s.recordingState
    // what each action does to its own field
    ensures a.SetUser? ==> t.user == a.user
    ensures a.UpdateUserAvatar? && s.user.None? ==> t == s
    ensures a.UpdateUserAvatar? && s.user.Some? ==>
      && t.user.Some?
      && t.user.value.customAvatar == OrUndefined(a.avatar)
      && t.user.value == s.user.value.(customAvatar := t.user.value.customAvatar)
    ensures a.SetCurrentJoke? ==> t.currentJoke == a.joke
    ensures a.AddJoke? ==>
      |t.jokes| == |s.jokes| + 1 && t.jokes[..|s.jokes|] == s.jokes && t.jokes[|s.jokes|] == a.added
    ensures a.UpdateJoke? ==> t.jokes == PatchWhere(s.jokes, a.targetId, a.patch)
    ensures a.DeleteJoke? ==> t.jokes == RemoveWhere(s.jokes, a.deletedId)
    ensures a.SetRecording? ==> t.isRecording == a.recording
    ensures a.SetRecordingState? ==> t.recordingState == a.recordingState
    ensures a.LoadJokes? ==> t.jokes == a.loaded
    ensures a.Unrecognised? ==> t == s
  {
    match a
    case SetUser(u) => s.(user := u)
    case UpdateUserAvatar(avatar) =>
      if s.user.None? then s
      else s.(user := Some(s.user.value.(customAvatar := OrUndefined(avatar))))
    case SetCurrentJoke(j) => s.(currentJoke := j)
    case AddJoke(j) => s.(jokes := s.jokes + [j])
    case UpdateJoke(id, p) => s.(jokes := PatchWhere(s.jokes, id, p))
    case DeleteJoke(id) => s.(jokes := RemoveWhere(s.jokes, id))
    case SetRecording(b) => s.(isRecording := b)
    case SetRecordingState(rs) => s.(recordingState := rs)
    case LoadJokes(js) => s.(jokes := js)
    case Unrecognised(_) => s
  }

  /** Updating a joke twice with the same patch is updating it once, even when
      the patch changes the joke's id. */
  lemma UpdateJokeIdempotent(s: AppState, id: string, p: JokePatch)
    ensures Reduce(Reduce(s, UpdateJoke(id, p)), UpdateJoke(id, p)) == Reduce(s, UpdateJoke(id, p))
  {
    var once := PatchWhere(s.jokes, id, p);
    var twice := PatchWhere(once, id, p);
    forall i | 0 <= i < |s.jokes|
      ensures twice[i] == once[i]
    {
      ApplyPatchIdempotent(s.jokes[i], p);
    }
    assert twice == once;
  }

  /** Deleting twice is deleting once. */
  lemma DeleteJokeIdempotent(s: AppState, id: string)
    ensures Reduce(Reduce(s, DeleteJoke(id)), DeleteJoke(id)) == Reduce(s, DeleteJoke(id))
  {
  }

  /** Deleting a freshly added joke by its id, when no other joke had that id,
      gives back the state before the addition. */
  lemma AddThenDelete(s: AppState, j: Joke)
    requires forall k :: 0 <= k < |s.jokes| ==> s.jokes[k].id != j.id
    ensures Reduce(Reduce(s, AddJoke(j)), DeleteJoke(j.id)) == s
  {
    RemoveWhereAppend(s.jokes, [j], j.id);
  }
}

=== FILE: claude_service.dfy ===
/** The remote scorer's reply handling: the reply text is parsed as JSON
    (the parser is a parameter), then the parsed record is normalised into a
    verdict. The SDK call itself is an input: either the reply's content
    blocks or the error it threw. */
module ClaudeService {
  import opened Wrappers
  import opened JsMath
  import opened JsText
  import opened Types

  /** The `metrics` object of a parsed reply. A field is `None` when it is
      missing or `null`. */
  datatype ParsedMetrics = ParsedMetrics(
    delivery: Option<real>,
    timing: Option<real>,
    originality: Option<real>,
    relatability: Option<real>)

  /** A parsed reply object. Nothing in it has been checked: `reaction` may be
      any string. Optional fields are `None` when missing or `null`. */
  datatype Parsed = Parsed(
    reaction: string,
    score: real,
    feedback: Option<string>,
    suggestion: Option<string>,
    metrics: Option<ParsedMetrics>)

  const FeedbackPlaceholder: string := "The audience is processing your joke..."
  const DefaultMetric: real := 50.0

  /** `x || fallback` for a numeric field: missing, `null` and 0 are falsy. */
  function NumberOr(x: Option<real>, fallback: real): (r: real)
    ensures x.Some? && x.value != 0.0 ==> r == x.value
    ensures x.None? || x.value == 0.0 ==> r == fallback
  {
    if x.Some? && x.value != 0.0 then x.value else fallback
  }

  /** The remote field names mapped onto the app's metric names. */
  function MetricsFromRemote(delivery: real, timing: real, originality: real, relatability: real): (m: JokeMetrics)
    ensures m.stutterScore == delivery && m.quickWit == timing
    ensures m.creativity == originality && m.punchlineImpact == relatability
  {
    JokeMetrics(delivery, timing, originality, relatability)
  }

  /** The four metric fields of the remote reply. */
  datatype RemoteField = Delivery | Timing | Originality | Relatability

  /** `parsed.metrics?.<field>`: absent when the metrics object is. */
  function FieldOf(metrics: Option<ParsedMetrics>, field: RemoteField): Option<real> {
    match metrics
    case None => None
    case Some(m) =>
      match field
      case Delivery => m.delivery
      case Timing => m.timing
      case Originality => m.originality
      case Relatability => m.relatability
  }

  /** The app metric a remote field lands in. */
  function Landing(m: JokeMetrics, field: RemoteField): real {
    match field
    case Delivery => m.stutterScore
    case Timing => m.quickWit
    case Originality => m.creativity
    case Relatability => m.punchlineImpact
  }

  /** `parsed.metrics?.<field> || 50`. */
  function MetricField(metrics: Option<ParsedMetrics>, field: RemoteField): (v: real)
    ensures v != 0.0
    ensures metrics.None? ==> v == DefaultMetric
  {
    NumberOr(FieldOf(metrics, field), DefaultMetric)
  }

  /** The validate-and-transform step applied to a parsed reply. */
  function Normalise(p: Parsed): (r: ClaudeResponse)
    ensures r.reaction == p.reaction
    ensures InPercentRange(r.score) && r.score == r.score.Floor as real
    ensures r.score - 0.5 <= ClampPercent(p.score) < r.score + 0.5
    ensures p.score <= 0.0 ==> r.score == 0.0
    ensures p.score >= 100.0 ==> r.score == 100.0
    ensures r.feedback != ""
    ensures Truthy(p.feedback) ==> r.feedback == p.feedback.value
    ensures !Truthy(p.feedback) ==> r.feedback == FeedbackPlaceholder
    ensures r.suggestion.Some? <==> Truthy(p.suggestion)
    ensures r.suggestion.Some? ==> r.suggestion == p.suggestion
    ensures r.metrics.stutterScore != 0.0 && r.metrics.quickWit != 0.0
    ensures r.metrics.creativity != 0.0 && r.metrics.punchlineImpact != 0.0
  {
    var clamped := ClampPercent(p.score);
    RoundWithin(clamped, 0, 100);
    ClaudeResponse(
      p.reaction,
      Round(clamped) as real,
      if Truthy(p.feedback) then p.feedback.value else FeedbackPlaceholder,
      OrUndefined(p.suggestion),
      MetricsFromRemote(
        MetricField(p.metrics, Delivery),
        MetricField(p.metrics, Timing),
        MetricField(p.metrics, Originality),
        MetricField(p.metrics, Relatability)))
  }

  /** Where each remote metric lands: a truthy value is copied unchanged (not
      clamped), a missing one or an explicit 0 becomes 50. */
  lemma NormaliseMetrics(p: Parsed)
    ensures var m := Normalise(p).metrics;
      && m.stutterScore == NumberOr(FieldOf(p.metrics, Delivery), DefaultMetric)
      && m.quickWit == NumberOr(FieldOf(p.metrics, Timing), DefaultMetric)
      && m.creativity == NumberOr(FieldOf(p.metrics, Originality), DefaultMetric)
      && m.punchlineImpact == NumberOr(FieldOf(p.metrics, Relatability), DefaultMetric)
      && (p.metrics.None? ==> m == JokeMetrics(DefaultMetric, DefaultMetric, DefaultMetric, DefaultMetric))
  {
  }

  /** For any reply and any field: an explicit zero lands as 50, exactly like
      a missing field, and a non-zero value lands unclamped, so one value
      outside 0-100 leaves the verdict's metrics out of range. */
  lemma NormaliseZeroAndOutOfRange(p: Parsed, field: RemoteField)
    ensures var v := FieldOf(p.metrics, field);
      v.None? || v.value == 0.0 ==> Landing(Normalise(p).metrics, field) == DefaultMetric
    ensures var v := FieldOf(p.metrics, field);
      v.Some? && v.value != 0.0 ==> Landing(Normalise(p).metrics, field) == v.value
    ensures var v := FieldOf(p.metrics, field);
      v.Some? && (v.value < 0.0 || v.value > 100.0) ==> !MetricsInRange(Normalise(p).metrics)
  {
  }

  /** One block of the model's reply. */
  datatype ContentBlock = TextBlock(text: string) | OtherBlock

  /** Why a remote scoring attempt throws. */
  datatype ServiceError =
    | ApiError(message: string)   // the SDK call itself threw
    | NoContent                   // the reply has no first block to read
    | NoResponse                  // 'No response from Claude'
    | InvalidJson                 // JSON.parse threw

  /** `analyzeJokeWithClaude` after the SDK call: `reply` is what the call
      produced, `parse` stands for `JSON.parse`. Every error is rethrown. */
  function AnalyzeJokeWithClaude(
    reply: Result<seq<ContentBlock>, string>,
    parse: string -> Option<Parsed>): (r: Result<ClaudeResponse, ServiceError>)
    ensures reply.Failure? ==> r == Failure(ApiError(reply.error))
    ensures r.Success? <==>
      && reply.Success? && |reply.value| > 0
      && reply.value[0].TextBlock? && reply.value[0].text != ""
      && parse(reply.value[0].text).Some?
    ensures r.Success? ==> r.value == Normalise(parse(reply.value[0].text).value)
    ensures reply.Success? && |reply.value| > 0 && reply.value[0].OtherBlock? ==> r == Failure(NoResponse)
  {
    match reply
    case Failure(e) => Failure(ApiError(e))
    case Success(blocks) =>
      if |blocks| == 0 then Failure(NoContent)
      else
        var text := if blocks[0].TextBlock? then blocks[0].text else "";
        if text == "" then Failure(NoResponse)
        else
          match parse(text)
          case None => Failure(InvalidJson)
          case Some(p) => Success(Normalise(p))
  }
}

=== FILE: js_math.dfy ===
/** The JavaScript numeric primitives the app relies on, over unbounded reals and
    integers (floating-point rounding is not modelled). */
module JsMath {

  /** `Math.round`: the nearest integer, with halves rounded toward +infinity. */
  function Round(x: real): (n: int)
    ensures n as real - 0.5 <= x < n as real + 0.5
  {
    (x + 0.5).Floor
  }

  /** The nearest-integer characterisation pins `Round` down uniquely. */
  lemma RoundUnique(x: real, n: int)
    requires n as real - 0.5 <= x < n as real + 0.5
    ensures Round(x) == n
  {
  }

  /** `Math.round` is monotone. */
  lemma RoundMonotone(x: real, y: real)
    requires x <= y
    ensures Round(x) <= Round(y)
  {
  }

  /** Rounding a value in [lo, hi] with integral bounds stays in [lo, hi]. */
  lemma RoundWithin(x: real, lo: int, hi: int)
    requires lo as real <= x <= hi as real
    ensures lo <= Round(x) <= hi
  {
  }

  /** `Math.max(0, Math.min(100, x))`: the value forced into [0, 100]. */
  function ClampPercent(x: real): (r: real)
    ensures 0.0 <= r <= 100.0
    ensures 0.0 <= x <= 100.0 ==> r == x
    ensures x < 0.0 ==> r == 0.0
    ensures x > 100.0 ==> r == 100.0
  {
    var capped := if x < 100.0 then x else 100.0;
    if capped > 0.0 then capped else 0.0
  }

  /** Clamping never moves a value away from a point inside [0, 100]. */
  lemma ClampPercentContracts(x: real, c: real)
    requires 0.0 <= c <= 100.0
    ensures Abs(ClampPercent(x) - c) <= Abs(x - c)
  {
  }

  function Abs(x: real): (r: real)
    ensures r >= 0.0
    ensures r == x || r == -x
  {
    if x < 0.0 then -x else x
  }

  /** A multiple of a positive divisor leaves no remainder. */
  lemma MultipleMod(k: int, b: int)
    requires b > 0
    ensures (k * b) % b == 0
  {
    var x := k * b;
    var d := k - x / b;
    assert d * b == x % b;
    if d >= 1 {
      assert false;
    } else if d <= -1 {
      assert false;
    }
  }

  /** Removing the remainder leaves a multiple of the divisor. */
  lemma NonNegativeRemainderDiffers(a: int, b: int)
    requires b > 0
    ensures (a - a % b) % b == 0
  {
    var q := a / b;
    MultipleMod(q, b);
    assert a - a % b == q * b;
  }

  /** The same for the remainder of the negated dividend, added back. */
  lemma NegatedRemainderDiffers(a: int, b: int)
    requires b > 0
    ensures (a + (-a) % b) % b == 0
  {
    var p := (-a) / b;
    MultipleMod(-p, b);
    assert (-p) * b == -(p * b);
  }

  /** JavaScript's `%` on integers with a positive divisor: the remainder of
      division truncated toward zero. It differs from the dividend by a
      multiple of the divisor, is smaller than the divisor in magnitude, and
      takes the dividend's sign (Dafny's own `%` never returns a negative
      value). */
  function JsRemainder(a: int, b: int): (r: int)
    requires b > 0
    ensures (a - r) % b == 0
    ensures a >= 0 ==> 0 <= r < b
    ensures a < 0 ==> -b < r <= 0
  {
    NonNegativeRemainderDiffers(a, b);
    NegatedRemainderDiffers(a, b);
    if a >= 0 then a % b else -((-a) % b)
  }
}

=== FILE: js_text.dfy ===
/** The JavaScript string primitives the app relies on: `toLowerCase`,
    `includes`, `split(/\s+/)`, `length` (in UTF-16 code units), number-to-string
    conversion and `padStart`. Strings are sequences of Unicode scalar values. */
module JsText {
  import opened Wrappers

  /** Membership in the class `\s` of JavaScript regular expressions: the
      WhiteSpace and LineTerminator code points of ECMAScript. */
  predicate IsWs(c: char) {
    var n := c as int;
    || n == 0x09 || n == 0x0A || n == 0x0B || n == 0x0C || n == 0x0D || n == 0x20
    || n == 0xA0 || n == 0x1680 || (0x2000 <= n <= 0x200A) || n == 0x2028 || n == 0x2029
    || n == 0x202F || n == 0x205F || n == 0x3000 || n == 0xFEFF
  }

  predicate IsAsciiUpper(c: char) { 'A' <= c <= 'Z' }

  predicate IsAsciiLower(c: char) { 'a' <= c <= 'z' }

  // ---------------------------------------------------------------------------
  // length

  /** `String.prototype.length` counts UTF-16 code units: a character outside
      the Basic Multilingual Plane is a surrogate pair and counts twice. */
  function Utf16Length(s: string): (n: nat)
    ensures |s| <= n <= 2 * |s|
    ensures |s| == 1 ==> n == (if s[0] as int > 0xFFFF then 2 else 1)
  {
    if |s| == 0 then 0
    else (if s[0] as int > 0xFFFF then 2 else 1) + Utf16Length(s[1..])
  }

  /** The code units of a concatenation are those of its parts. */
  lemma {:induction false} Utf16LengthAppend(a: string, b: string)
    ensures Utf16Length(a + b) == Utf16Length(a) + Utf16Length(b)
  {
    if |a| > 0 {
      assert (a + b)[1..] == a[1..] + b;
      Utf16LengthAppend(a[1..], b);
    } else {
      assert a + b == b;
    }
  }

  /** Text made only of Basic Multilingual Plane characters has one code unit
      per character. */
  lemma {:induction false} Utf16LengthOfBmp(s: string)
    requires forall k :: 0 <= k < |s| ==> s[k] as int <= 0xFFFF
    ensures Utf16Length(s) == |s|
  {
    if |s| > 0 {
      Utf16LengthOfBmp(s[1..]);
    }
  }

  // ---------------------------------------------------------------------------
  // toLowerCase

  /** The lower-case form of one character, as far as it can contain an ASCII
      letter: A-Z map to a-z, KELVIN SIGN (U+212A) maps to 'k', and LATIN
      CAPITAL LETTER I WITH DOT ABOVE (U+0130) maps to "i" followed by a
      combining dot (U+0307). Every other character is kept as it is; the
      lower-case form of such a character holds no ASCII letter either. */
  function LowerChar(c: char): (r: string)
    ensures 1 <= |r| <= 2
    ensures forall k :: 0 <= k < |r| ==> !IsAsciiUpper(r[k])
    ensures IsAsciiUpper(c) ==> |r| == 1 && IsAsciiLower(r[0]) && r[0] as int == c as int + 32
    ensures c == '\U{212A}' ==> r == ['k']
    ensures c == '\U{0130}' ==> r == ['i', '\U{0307}']
    ensures !IsAsciiUpper(c) && c != '\U{212A}' && c != '\U{0130}' ==> r == [c]
  {
    if IsAsciiUpper(c) then [(c as int + 32) as char]
    else if c == '\U{212A}' then ['k']
    else if c == '\U{0130}' then ['i', '\U{0307}']
    else [c]
  }

  /** `String.prototype.toLowerCase`, character by character. Away from the
      one character that lowers to two, position k of the result is the
      lower-case form of position k of the input. */
  function ToLower(s: string): (r: string)
    ensures |r| >= |s|
    ensures forall k :: 0 <= k < |r| ==> !IsAsciiUpper(r[k])
    ensures |s| == 1 ==> r == LowerChar(s[0])
    ensures (forall k :: 0 <= k < |s| ==> s[k] != '\U{0130}') ==>
      |r| == |s| && forall k :: 0 <= k < |s| ==> [r[k]] == LowerChar(s[k])
  {
    if |s| == 0 then [] else LowerChar(s[0]) + ToLower(s[1..])
  }

  lemma {:induction false} ToLowerAppend(a: string, b: string)
    ensures ToLower(a + b) == ToLower(a) + ToLower(b)
  {
    if |a| > 0 {
      assert (a + b)[1..] == a[1..] + b;
      ToLowerAppend(a[1..], b);
    } else {
      assert a + b == b;
    }
  }

  /** Lowering is idempotent. */
  lemma {:induction false} ToLowerIdempotent(s: string)
    ensures ToLower(ToLower(s)) == ToLower(s)
  {
    if |s| > 0 {
      var head := LowerChar(s[0]);
      ToLowerAppend(head, ToLower(s[1..]));
      ToLowerIdempotent(s[1..]);
      assert ToLower(head) == head by {
        if |head| == 2 {
          assert head[1..] == ['\U{0307}'];
        }
      }
    }
  }

  /** `toUpperCase` restricted to the ASCII letters a-z. */
  function UpperAscii(s: string): (r: string)
    ensures |r| == |s|
    ensures forall k :: 0 <= k < |s| ==> IsWs(r[k]) == IsWs(s[k])
    ensures forall k :: 0 <= k < |s| ==> !IsAsciiLower(r[k])
  {
    if |s| == 0 then []
    else [if IsAsciiLower(s[0]) then (s[0] as int - 32) as char else s[0]] + UpperAscii(s[1..])
  }

  /** Lowering forgets ASCII case: upper-casing the ASCII letters first makes
      no difference. */
  lemma {:induction false} ToLowerIgnoresAsciiCase(s: string)
    ensures ToLower(UpperAscii(s)) == ToLower(s)
  {
    if |s| > 0 {
      var u := UpperAscii(s);
      ToLowerIgnoresAsciiCase(s[1..]);
      assert u[1..] == UpperAscii(s[1..]);
      assert LowerChar(u[0]) == LowerChar(s[0]) by {
        if IsAsciiLower(s[0]) {
          assert u[0] as int == s[0] as int - 32;
        }
      }
      assert ToLower(u) == LowerChar(u[0]) + ToLower(u[1..]);
    }
  }

  /** Upper-casing ASCII letters keeps every character's code-unit width. */
  lemma {:induction false} Utf16LengthIgnoresAsciiCase(s: string)
    ensures Utf16Length(UpperAscii(s)) == Utf16Length(s)
  {
    if |s| > 0 {
      Utf16LengthIgnoresAsciiCase(s[1..]);
      assert UpperAscii(s)[1..] == UpperAscii(s[1..]);
    }
  }

  // ---------------------------------------------------------------------------
  // includes

  /** `String.prototype.includes`: `k` occurs in `s` as a contiguous block. */
  predicate Contains(s: string, k: string)
    decreases |s|
  {
    |k| <= |s| && (s[..|k|] == k || Contains(s[1..], k))
  }

  /** `k` occurs in `s` starting at position `i`. */
  predicate OccursAt(s: string, k: string, i: int) {
    0 <= i <= |s| - |k| && s[i..i + |k|] == k
  }

  /** `Contains` agrees with the positional definition of an occurrence. */
  lemma {:induction false} ContainsIff(s: string, k: string)
    ensures Contains(s, k) <==> exists i :: OccursAt(s, k, i)
    decreases |s|
  {
    if |k| <= |s| && s[..|k|] != k {
      ContainsIff(s[1..], k);
      if Contains(s[1..], k) {
        var i :| OccursAt(s[1..], k, i);
        assert s[i + 1..i + 1 + |k|] == s[1..][i..i + |k|];
        assert OccursAt(s, k, i + 1);
      }
      if exists i :: OccursAt(s, k, i) {
        var i :| OccursAt(s, k, i);
        assert i != 0;
        assert s[1..][i - 1..i - 1 + |k|] == s[i..i + |k|];
        assert OccursAt(s[1..], k, i - 1);
      }
    } else if |k| <= |s| {
      assert OccursAt(s, k, 0);
    }
  }

  // ---------------------------------------------------------------------------
  // split(/\s+/)

  /** The end of the whitespace run that starts at `i` (or `i` itself). */
  function SkipWs(s: string, i: nat): (j: nat)
    requires i <= |s|
    ensures i <= j <= |s|
    ensures forall k :: i <= k < j ==> IsWs(s[k])
    ensures j == |s| || !IsWs(s[j])
    decreases |s| - i
  {
    if i < |s| && IsWs(s[i]) then SkipWs(s, i + 1) else i
  }

  predicate NoWs(t: string) {
    forall k :: 0 <= k < |t| ==> !IsWs(t[k])
  }

  /** `s[i..].split(/\s+/)`: the pieces between the maximal whitespace runs,
      including an empty piece before a leading run and after a trailing one. */
  function SplitFrom(s: string, i: nat): (fields: seq<string>)
    requires i <= |s|
    ensures |fields| >= 1
    ensures forall k :: 0 <= k < |fields| ==> NoWs(fields[k])
    decreases |s| - i
  {
    if i == |s| then [""]
    else if !IsWs(s[i]) then
      var rest := SplitFrom(s, i + 1);
      [[s[i]] + rest[0]] + rest[1..]
    else
      [""] + SplitFrom(s, SkipWs(s, i + 1))
  }

  function Split(s: string): (fields: seq<string>)
    ensures |fields| >= 1
  {
    SplitFrom(s, 0)
  }

  /** Position `i` begins a maximal whitespace run. */
  predicate RunStart(s: string, i: nat)
    requires i < |s|
  {
    IsWs(s[i]) && (i == 0 || !IsWs(s[i - 1]))
  }

  /** The number of maximal whitespace runs that begin at or after `i`. */
  function RunsFrom(s: string, i: nat): nat
    requires i <= |s|
    decreases |s| - i
  {
    if i == |s| then 0 else (if RunStart(s, i) then 1 else 0) + RunsFrom(s, i + 1)
  }

  /** The number of maximal whitespace runs in `s`. */
  function WhitespaceRuns(s: string): nat {
    RunsFrom(s, 0)
  }

  /** Positions inside a run never start one. */
  lemma {:induction false} RunsSkipped(s: string, k: nat, j: nat)
    requires 0 < k <= j <= |s|
    requires forall m :: k - 1 <= m < j ==> IsWs(s[m])
    ensures RunsFrom(s, k) == RunsFrom(s, j)
    decreases j - k
  {
    if k < j {
      RunsSkipped(s, k + 1, j);
    }
  }

  lemma {:induction false} SplitFromCount(s: string, i: nat)
    requires i <= |s|
    requires i == 0 || i == |s| || !IsWs(s[i]) || !IsWs(s[i - 1])
    ensures |SplitFrom(s, i)| == RunsFrom(s, i) + 1
    decreases |s| - i
  {
    if i == |s| {
    } else if !IsWs(s[i]) {
      SplitFromCount(s, i + 1);
    } else {
      var j := SkipWs(s, i + 1);
      SplitFromCount(s, j);
      RunsSkipped(s, i + 1, j);
    }
  }

  /** `split(/\s+/)` yields one more piece than there are whitespace runs. */
  lemma SplitCount(s: string)
    ensures |Split(s)| == WhitespaceRuns(s) + 1
  {
    SplitFromCount(s, 0);
  }

  /** Run counting sees only which characters are whitespace. */
  lemma {:induction false} RunsFromSameShape(s: string, t: string, i: nat)
    requires |s| == |t| && i <= |s|
    requires forall k :: 0 <= k < |s| ==> IsWs(s[k]) == IsWs(t[k])
    ensures RunsFrom(s, i) == RunsFrom(t, i)
    decreases |s| - i
  {
    if i < |s| {
      RunsFromSameShape(s, t, i + 1);
    }
  }

  // ---------------------------------------------------------------------------
  // number-to-string and padStart

  predicate IsDigit(c: char) { '0' <= c <= '9' }

  predicate AllDigits(s: string) {
    forall k :: 0 <= k < |s| ==> IsDigit(s[k])
  }

  function DigitChar(d: nat): (c: char)
    requires d < 10
    ensures IsDigit(c)
  {
    ('0' as int + d) as char
  }

  function DigitValue(c: char): (d: nat)
    requires IsDigit(c)
    ensures d < 10
  {
    c as int - '0' as int
  }

  /** The value of a string of decimal digits (leading zeros allowed). */
  function ParseDigits(s: string): nat
    requires AllDigits(s)
  {
    if |s| == 0 then 0 else ParseDigits(s[..|s| - 1]) * 10 + DigitValue(s[|s| - 1])
  }

  /** A leading zero does not change the value of a digit string. */
  lemma {:induction false} ParseDigitsLeadingZero(x: string)
    requires AllDigits(x)
    ensures AllDigits(['0'] + x) && ParseDigits(['0'] + x) == ParseDigits(x)
  {
    if |x| > 0 {
      var y := ['0'] + x;
      assert y[..|y| - 1] == ['0'] + x[..|x| - 1];
      ParseDigitsLeadingZero(x[..|x| - 1]);
    } else {
      assert (['0'] + x)[..0] == [];
    }
  }

  /** The decimal form of a non-negative integer, as `String(n)` writes it. */
  function NatToString(n: nat): (r: string)
    ensures 1 <= |r|
    ensures AllDigits(r)
    ensures ParseDigits(r) == n
    ensures |r| == 1 <==> n < 10
    ensures |r| > 1 ==> r[0] != '0'
  {
    if n < 10 then [DigitChar(n)]
    else
      var r := NatToString(n / 10) + [DigitChar(n % 10)];
      assert r[..|r| - 1] == NatToString(n / 10);
      r
  }

  /** The decimal form of an integer, with a leading '-' when negative. */
  function IntToString(n: int): (r: string)
    ensures 1 <= |r|
    ensures n >= 0 ==> AllDigits(r) && ParseDigits(r) == n && (|r| == 1 || r[0] != '0')
    ensures n < 0 ==> r[0] == '-' && AllDigits(r[1..]) && ParseDigits(r[1..]) == -n
    ensures n < 0 ==> |r| >= 2 && (|r| == 2 || r[1] != '0')
  {
    if n < 0 then "-" + NatToString(-n) else NatToString(n)
  }

  /** `t.padStart(width, fill)` with a one-character fill. */
  function PadStart(t: string, width: nat, fill: char): (r: string)
    ensures |t| >= width ==> r == t
    ensures |t| < width ==> |r| == width
    ensures |r| >= |t| && r[|r| - |t|..] == t
    ensures forall k :: 0 <= k < |r| - |t| ==> r[k] == fill
    decreases width - |t|
  {
    if |t| >= width then t else PadStart([fill] + t, width, fill)
  }

  // ---------------------------------------------------------------------------
  // truthiness of optional strings

  /** An optional string is truthy when present and non-empty. */
  predicate Truthy(x: Option<string>) {
    x.Some? && x.value != ""
  }

  /** `x || undefined`: the empty string is dropped along with `null`. */
  function OrUndefined(x: Option<string>): (r: Option<string>)
    ensures r.Some? <==> Truthy(x)
    ensures r.Some? ==> r == x
  {
    if Truthy(x) then x else None
  }
}

=== FILE: mock_grader.dfy ===
/** The local rule-based joke grader: keyword checks, a length check and a
    pacing score pick a reaction and a score band, a random draw picks the score
    inside the band and the feedback lines, and four metrics are jittered around
    the rounded score. Every `Math.random()` call is an explicit draw in [0, 1). */
module MockGrader {
  import opened Wrappers
  import opened JsMath
  import opened JsText
  import opened Types

  const PositiveKeywords: seq<string> :=
    ["funny", "hilarious", "laugh", "joke", "comedy", "clever", "witty"]

  const NegativeKeywords: seq<string> :=
    ["bad", "awful", "terrible", "unfunny", "boring", "lame"]

  const GreatFeedback: seq<string> := [
    "That was absolutely hilarious! The crowd can't stop laughing!",
    "Comedy gold! Your timing was perfect!",
    "The audience is roaring with laughter! Great job!",
    "You killed it! That punchline was incredible!",
    "Standing ovation! You're a natural comedian!"
  ]

  const GoodFeedback: seq<string> := [
    "Solid joke! The crowd is really enjoying it!",
    "Nice delivery! You got some good laughs there!",
    "Pretty funny! Keep working on that timing!",
    "The audience liked that one! Good energy!",
    "Not bad at all! You're getting the hang of it!"
  ]

  const MixedFeedback: seq<string> := [
    "Mixed reactions from the crowd. Try a different approach!",
    "Some laughs, some groans. Keep practicing!",
    "Hit or miss, but you're on the right track!",
    "The crowd seems divided. Maybe punch it up a bit!",
    "Getting there! Work on that delivery!"
  ]

  const PoorFeedback: seq<string> := [
    "Tough crowd tonight! Don't give up!",
    "That one fell flat. Try a different angle!",
    "Crickets... but everyone bombs sometimes!",
    "The audience seems confused. Clarify your setup!",
    "Keep working on it! Comedy takes practice!"
  ]

  const Suggestions: seq<string> := [
    "Try adding a unexpected twist at the end!",
    "Build more tension before the punchline!",
    "Make the setup clearer for better impact!",
    "Add more energy to your delivery!",
    "Try relating it to something more universal!",
    "Pause before the punchline for effect!",
    "Use more specific details in your setup!"
  ]

  const TooShortFeedback: string := "That was too short! Give us more to work with!"
  const TooShortSuggestion: string := "Try expanding your joke with more setup and detail!"

  /** The word lists and the lines `analyzeJoke` draws on. The rules below are
      stated for any lexicon whose pools are non-empty; `AppLexicon` is the one the
      app ships. */
  datatype Lexicon = Lexicon(
    positive: seq<string>,
    negative: seq<string>,
    great: seq<string>,
    good: seq<string>,
    mixed: seq<string>,
    poor: seq<string>,
    tips: seq<string>,
    tooShort: string,
    tooShortTip: string)

  predicate ValidLexicon(lx: Lexicon) {
    |lx.great| > 0 && |lx.good| > 0 && |lx.mixed| > 0 && |lx.poor| > 0 && |lx.tips| > 0
  }

  const AppLexicon: Lexicon := Lexicon(
    PositiveKeywords, NegativeKeywords,
    GreatFeedback, GoodFeedback, MixedFeedback, PoorFeedback, Suggestions,
    TooShortFeedback, TooShortSuggestion)

  // ---------------------------------------------------------------------------
  // random draws

  /** A value `Math.random()` can return. */
  predicate IsDraw(r: real) { 0.0 <= r < 1.0 }

  /** The four draws behind the metric jitter, in the order the metrics are built. */
  datatype Variance = Variance(stutter: real, quickWit: real, creativity: real, punchlineImpact: real)

  predicate ValidVariance(v: Variance) {
    IsDraw(v.stutter) && IsDraw(v.quickWit) && IsDraw(v.creativity) && IsDraw(v.punchlineImpact)
  }

  /** All draws one grading can make: the score inside the band, the feedback
      line, the suggestion line, then the metric jitter. A branch that makes
      fewer draws ignores the ones it does not need. */
  datatype Draws = Draws(score: real, feedback: real, suggestion: real, variance: Variance)

  predicate ValidDraws(d: Draws) {
    IsDraw(d.score) && IsDraw(d.feedback) && IsDraw(d.suggestion) && ValidVariance(d.variance)
  }

  /** `pool[Math.floor(r * pool.length)]`: a uniform pick from a non-empty pool. */
  function Pick(pool: seq<string>, r: real): (s: string)
    requires |pool| > 0 && IsDraw(r)
    ensures s in pool
  {
    var n := |pool| as real;
    assert r * n < n;
    pool[(r * n).Floor]
  }

  /** Every line of a pool is picked by some draw. */
  lemma PickReaches(pool: seq<string>, i: nat)
    requires i < |pool|
    ensures exists r :: IsDraw(r) && Pick(pool, r) == pool[i]
  {
    var r := i as real / |pool| as real;
    assert r * (|pool| as real) == i as real;
    assert IsDraw(r);
    assert Pick(pool, r) == pool[i];
  }

  // ---------------------------------------------------------------------------
  // metrics

  /** `Math.max(0, Math.min(100, base + (Math.random() * 10 - 5)))`. */
  function Jitter(base: real, r: real): (m: real)
    requires IsDraw(r)
    ensures InPercentRange(m)
    ensures InPercentRange(base) ==> Abs(m - base) <= 5.0
    ensures 5.0 <= base <= 95.0 ==> base - 5.0 <= m < base + 5.0
  {
    ClampPercent(base + (r * 10.0 - 5.0))
  }

  /** Every metric is within `bound` of `base`. */
  predicate MetricsNear(m: JokeMetrics, base: real, bound: real) {
    && Abs(m.stutterScore - base) <= bound
    && Abs(m.quickWit - base) <= bound
    && Abs(m.creativity - base) <= bound
    && Abs(m.punchlineImpact - base) <= bound
  }

  /** Four metrics jittered independently around a base score. */
  function GenerateMetrics(base: real, v: Variance): (m: JokeMetrics)
    requires ValidVariance(v)
    ensures MetricsInRange(m)
    ensures InPercentRange(base) ==> MetricsNear(m, base, 5.0)
  {
    JokeMetrics(
      Jitter(base, v.stutter),
      Jitter(base, v.quickWit),
      Jitter(base, v.creativity),
      Jitter(base, v.punchlineImpact))
  }

  /** Away from the ends of [0, 100] no clamping happens: every jitter value in
      [-5, 5) is reachable and each metric is exactly base plus its jitter. */
  lemma GenerateMetricsUnclamped(base: real, v: Variance)
    requires ValidVariance(v) && 5.0 <= base <= 95.0
    ensures GenerateMetrics(base, v).stutterScore == base + v.stutter * 10.0 - 5.0
    ensures GenerateMetrics(base, v).quickWit == base + v.quickWit * 10.0 - 5.0
    ensures GenerateMetrics(base, v).creativity == base + v.creativity * 10.0 - 5.0
    ensures GenerateMetrics(base, v).punchlineImpact == base + v.punchlineImpact * 10.0 - 5.0
  {
  }

  // ---------------------------------------------------------------------------
  // classification

  /** Some keyword of the list occurs in `text` (`keywords.some(k => text.includes(k))`). */
  predicate HasKeyword(text: string, keywords: seq<string>) {
    exists i :: 0 <= i < |keywords| && Contains(text, keywords[i])
  }

  /** `some`/`includes` read positionally: a keyword test holds exactly when
      one of the keywords occurs at some index of the text. */
  lemma HasKeywordIff(text: string, keywords: seq<string>)
    ensures HasKeyword(text, keywords) <==>
      exists i, at :: 0 <= i < |keywords| && OccursAt(text, keywords[i], at)
  {
    forall i | 0 <= i < |keywords| {
      ContainsIff(text, keywords[i]);
    }
  }

  /** A positive keyword occurs in the lower-cased transcript. */
  predicate HasPositive(lx: Lexicon, transcript: string) {
    HasKeyword(ToLower(transcript), lx.positive)
  }

  /** A negative keyword occurs in the lower-cased transcript. */
  predicate HasNegative(lx: Lexicon, transcript: string) {
    HasKeyword(ToLower(transcript), lx.negative)
  }

  /** `transcript.split(/\s+/).length`. */
  function WordCount(transcript: string): (n: nat)
    ensures n == WhitespaceRuns(transcript) + 1
    ensures n >= 1
  {
    SplitCount(transcript);
    |Split(transcript)|
  }

  /** `Math.max(0, 100 - Math.abs(wordCount - duration * 2.5) * 2)`: full marks
      at 2.5 words per second, two points off per word away from that. */
  function PacingScore(wordCount: int, duration: real): (p: real)
    ensures InPercentRange(p)
    ensures p == 100.0 <==> wordCount as real == duration * 2.5
    ensures p > 70.0 <==> Abs(wordCount as real - duration * 2.5) < 15.0
    ensures p == 0.0 <==> Abs(wordCount as real - duration * 2.5) >= 50.0
  {
    var optimal := duration * 2.5;
    var raw := 100.0 - Abs(wordCount as real - optimal) * 2.0;
    if raw > 0.0 then raw else 0.0
  }

  /** A word count farther from 2.5 words per second never paces better. */
  lemma PacingMonotone(near: int, far: int, duration: real)
    requires Abs(near as real - duration * 2.5) <= Abs(far as real - duration * 2.5)
    ensures PacingScore(far, duration) <= PacingScore(near, duration)
  {
  }

  /** What `analyzeJoke` reads off a transcript before any draw is made. */
  datatype Signals = Signals(
    positive: bool,
    negative: bool,
    wordCount: nat,
    pacing: real,
    length: nat)

  function Classify(lx: Lexicon, transcript: string, duration: real): (sig: Signals)
    ensures sig.wordCount == WhitespaceRuns(transcript) + 1
    ensures InPercentRange(sig.pacing)
    ensures sig.pacing == 100.0 <==> sig.wordCount as real == duration * 2.5
    ensures sig.pacing > 70.0 <==> Abs(sig.wordCount as real - duration * 2.5) < 15.0
    ensures |transcript| <= sig.length
  {
    var words := WordCount(transcript);
    Signals(
      HasPositive(lx, transcript),
      HasNegative(lx, transcript),
      words,
      PacingScore(words, duration),
      Utf16Length(transcript))
  }

  /** Classification sees no difference between ASCII upper and lower case. */
  lemma ClassifyIgnoresAsciiCase(lx: Lexicon, transcript: string, duration: real)
    ensures Classify(lx, UpperAscii(transcript), duration) == Classify(lx, transcript, duration)
  {
    ToLowerIgnoresAsciiCase(transcript);
    Utf16LengthIgnoresAsciiCase(transcript);
    RunsFromSameShape(UpperAscii(transcript), transcript, 0);
  }

  // ---------------------------------------------------------------------------
  // decision

  /** The branch outcome before rounding: reaction, raw score and lines. */
  datatype Decision = Decision(
    reaction: Reaction,
    raw: real,
    feedback: string,
    suggestion: Option<string>)

  /** The five rules, first match wins. */
  function Decide(lx: Lexicon, sig: Signals, d: Draws): (dec: Decision)
    requires ValidLexicon(lx) && ValidDraws(d)
    ensures sig.positive && !sig.negative ==>
      dec.reaction == Laughs && 80.0 <= dec.raw < 100.0
      && dec.feedback in lx.great && dec.suggestion == None
    ensures sig.negative && !sig.positive ==>
      dec.reaction == Tomatoes && 10.0 <= dec.raw < 30.0
      && dec.feedback in lx.poor && dec.suggestion.Some? && dec.suggestion.value in lx.tips
    ensures sig.positive == sig.negative && sig.length < 20 ==>
      dec.reaction == Crickets && 20.0 <= dec.raw < 40.0
      && dec.feedback == lx.tooShort && dec.suggestion == Some(lx.tooShortTip)
    ensures sig.positive == sig.negative && sig.length >= 20 && sig.pacing > 70.0 ==>
      dec.reaction == Roses && 60.0 <= dec.raw < 80.0
      && dec.feedback in lx.good && dec.suggestion == None
    ensures sig.positive == sig.negative && sig.length >= 20 && sig.pacing <= 70.0 ==>
      dec.reaction == Roses && 40.0 <= dec.raw < 60.0
      && dec.feedback in lx.mixed && dec.suggestion.Some? && dec.suggestion.value in lx.tips
  {
    if sig.positive && !sig.negative then
      Decision(Laughs, 80.0 + d.score * 20.0, Pick(lx.great, d.feedback), None)
    else if sig.negative && !sig.positive then
      Decision(Tomatoes, 10.0 + d.score * 20.0, Pick(lx.poor, d.feedback),
               Some(Pick(lx.tips, d.suggestion)))
    else if sig.length < 20 then
      Decision(Crickets, 20.0 + d.score * 20.0, lx.tooShort, Some(lx.tooShortTip))
    else if sig.pacing > 70.0 then
      Decision(Roses, 60.0 + d.score * 20.0, Pick(lx.good, d.feedback), None)
    else
      Decision(Roses, 40.0 + d.score * 20.0, Pick(lx.mixed, d.feedback),
               Some(Pick(lx.tips, d.suggestion)))
  }

  /** The score draw covers its band: every raw score in the band of the branch
      taken is produced by some draw. */
  lemma DecideCoversBand(lx: Lexicon, sig: Signals, d: Draws, target: real)
    requires ValidLexicon(lx) && ValidDraws(d)
    requires var low := Decide(lx, sig, d).raw - d.score * 20.0; low <= target < low + 20.0
    ensures exists s :: IsDraw(s) && Decide(lx, sig, d.(score := s)).raw == target
  {
    var low := Decide(lx, sig, d).raw - d.score * 20.0;
    var s := (target - low) / 20.0;
    assert IsDraw(s);
    assert Decide(lx, sig, d.(score := s)).raw == target;
  }

  // ---------------------------------------------------------------------------
  // analyzeJoke

  /** The body of `analyzeJoke(transcript, duration)` over a lexicon, with its
      random draws made explicit: a known reaction, a whole-number score in
      0-100, and metrics in 0-100 jittered around the rounded score. */
  function AnalyzeJokeWith(lx: Lexicon, transcript: string, duration: real, d: Draws): (r: ClaudeResponse)
    requires ValidLexicon(lx) && ValidDraws(d)
    ensures IsReactionName(r.reaction)
    ensures r.score == r.score.Floor as real && InPercentRange(r.score)
    ensures MetricsInRange(r.metrics) && MetricsNear(r.metrics, r.score, 5.0)
  {
    var sig := Classify(lx, transcript, duration);
    var dec := Decide(lx, sig, d);
    var score := Round(dec.raw);
    RoundWithin(dec.raw, 0, 100);
    ClaudeResponse(
      Name(dec.reaction),
      score as real,
      dec.feedback,
      dec.suggestion,
      GenerateMetrics(score as real, d.variance))
  }

  /** `analyzeJoke` itself, with the app's word lists and lines. */
  function AnalyzeJoke(transcript: string, duration: real, d: Draws): (r: ClaudeResponse)
    requires ValidDraws(d)
    ensures IsReactionName(r.reaction)
    ensures r.score == r.score.Floor as real && InPercentRange(r.score)
    ensures MetricsInRange(r.metrics) && MetricsNear(r.metrics, r.score, 5.0)
  {
    AnalyzeJokeWith(AppLexicon, transcript, duration, d)
  }

  /** The rules in priority order, seen from the transcript: which reaction
      each rule gives and the band its rounded score falls in. */
  lemma AnalyzeJokeBands(lx: Lexicon, transcript: string, duration: real, d: Draws)
    requires ValidLexicon(lx) && ValidDraws(d)
    ensures var r := AnalyzeJokeWith(lx, transcript, duration, d);
      var pos, neg := HasPositive(lx, transcript), HasNegative(lx, transcript);
      && (pos && !neg ==> r.reaction == "laughs" && 80.0 <= r.score <= 100.0 && r.suggestion == None)
      && (neg && !pos ==> r.reaction == "tomatoes" && 10.0 <= r.score <= 30.0 && r.suggestion.Some?)
      && (pos == neg && Utf16Length(transcript) < 20 ==>
            && r.reaction == "crickets" && 20.0 <= r.score <= 40.0
            && r.feedback == lx.tooShort && r.suggestion == Some(lx.tooShortTip))
      && (pos == neg && Utf16Length(transcript) >= 20 ==>
            r.reaction == "roses" && 40.0 <= r.score <= 80.0)
  {
    var sig := Classify(lx, transcript, duration);
    var dec := Decide(lx, sig, d);
    var r := AnalyzeJokeWith(lx, transcript, duration, d);
    assert r.reaction == Name(dec.reaction) && r.score == Round(dec.raw) as real;
    assert r.feedback == dec.feedback && r.suggestion == dec.suggestion;
    var low := if sig.positive && !sig.negative then 80
      else if sig.negative && !sig.positive then 10
      else if sig.length < 20 then 20
      else if sig.pacing > 70.0 then 60
      else 40;
    RoundWithin(dec.raw, low, low + 20);
  }

  /** The reaction tells which rule fired, in both directions. */
  lemma AnalyzeJokeReactionIff(lx: Lexicon, transcript: string, duration: real, d: Draws)
    requires ValidLexicon(lx) && ValidDraws(d)
    ensures var r := AnalyzeJokeWith(lx, transcript, duration, d);
      var pos, neg := HasPositive(lx, transcript), HasNegative(lx, transcript);
      && (r.reaction == "laughs" <==> pos && !neg)
      && (r.reaction == "tomatoes" <==> neg && !pos)
      && (r.reaction == "crickets" <==> pos == neg && Utf16Length(transcript) < 20)
      && (r.reaction == "roses" <==> pos == neg && Utf16Length(transcript) >= 20)
  {
  }

  /** Only the two strong outcomes come without a suggestion: laughs, and roses
      for a well-paced transcript (pacing score above 70). */
  lemma AnalyzeJokeSuggestionIff(lx: Lexicon, transcript: string, duration: real, d: Draws)
    requires ValidLexicon(lx) && ValidDraws(d)
    ensures var r := AnalyzeJokeWith(lx, transcript, duration, d);
      var sig := Classify(lx, transcript, duration);
      r.suggestion == None <==>
        (r.reaction == "laughs" || (r.reaction == "roses" && sig.pacing > 70.0))
  {
  }

  /** A strong roses verdict scores at least 60 and a weak one at most 60. */
  lemma AnalyzeJokeRosesSplit(lx: Lexicon, transcript: string, duration: real, d: Draws)
    requires ValidLexicon(lx) && ValidDraws(d)
    requires HasPositive(lx, transcript) == HasNegative(lx, transcript) && Utf16Length(transcript) >= 20
    ensures var r := AnalyzeJokeWith(lx, transcript, duration, d);
      var pacing := Classify(lx, transcript, duration).pacing;
      && (pacing > 70.0 ==> 60.0 <= r.score <= 80.0 && r.feedback in lx.good)
      && (pacing <= 70.0 ==>
            && 40.0 <= r.score <= 60.0 && r.feedback in lx.mixed
            && r.suggestion.Some? && r.suggestion.value in lx.tips)
  {
    var sig := Classify(lx, transcript, duration);
    var dec := Decide(lx, sig, d);
    RoundWithin(dec.raw, if sig.pacing > 70.0 then 60 else 40, if sig.pacing > 70.0 then 80 else 60);
  }

  /** Every line the verdict carries is drawn from the lexicon, from the pool
      its reaction calls for: great-joke lines for laughs, poor-joke lines for
      tomatoes, the good or mixed lines for roses and the too-short line for
      crickets; the suggestion comes from the tips or is the too-short tip. */
  lemma AnalyzeJokeLines(lx: Lexicon, transcript: string, duration: real, d: Draws)
    requires ValidLexicon(lx) && ValidDraws(d)
    ensures var r := AnalyzeJokeWith(lx, transcript, duration, d);
      && (r.feedback in lx.great || r.feedback in lx.good || r.feedback in lx.mixed
          || r.feedback in lx.poor || r.feedback == lx.tooShort)
      && (r.reaction == "laughs" ==> r.feedback in lx.great)
      && (r.reaction == "tomatoes" ==> r.feedback in lx.poor)
      && (r.reaction == "roses" ==> r.feedback in lx.good || r.feedback in lx.mixed)
      && (r.reaction == "crickets" ==> r.feedback == lx.tooShort)
      && (r.suggestion.Some? ==> r.suggestion.value in lx.tips || r.suggestion.value == lx.tooShortTip)
  {
    AnalyzeJokeReactionIff(lx, transcript, duration, d);
  }

  /** Grading is case-insensitive: upper-casing the ASCII letters of the
      transcript changes nothing in the verdict. */
  lemma AnalyzeJokeIgnoresAsciiCase(lx: Lexicon, transcript: string, duration: real, d: Draws)
    requires ValidLexicon(lx) && ValidDraws(d)
    ensures AnalyzeJokeWith(lx, UpperAscii(transcript), duration, d) == AnalyzeJokeWith(lx, transcript, duration, d)
  {
    ClassifyIgnoresAsciiCase(lx, transcript, duration);
  }
}

=== FILE: record_page.dfy ===
/** The recording page: the clock display, grading the finished recording and
    revealing the verdict, turning a verdict into a saved or published joke,
    and the resets that start a new recording or discard one. Navigation,
    audio playback and the recording hook itself are not modelled: the hook's
    outputs and the clock readings are parameters, and each timer callback is
    a step of its own. */
module RecordPage {
  import opened Wrappers
  import opened JsMath
  import opened JsText
  import opened Types
  import AppContext
  import MockGrader
  import AnalyticsModal

  // ---------------------------------------------------------------------------
  // formatTime

  /** `Math.floor(seconds / 60)`. */
  function Minutes(seconds: int): (m: int)
    ensures 60 * m <= seconds < 60 * m + 60
  {
    FloorOfSixtieth(seconds);
    (seconds as real / 60.0).Floor
  }

  /** The floor of the real quotient by 60 brackets the dividend. */
  lemma FloorOfSixtieth(seconds: int)
    ensures var m := (seconds as real / 60.0).Floor; 60 * m <= seconds < 60 * m + 60
  {
    var q := seconds / 60;
    assert (q * 60) as real <= seconds as real < (q * 60 + 60) as real;
    assert q as real <= seconds as real / 60.0 < q as real + 1.0;
  }

  /** `seconds % 60`, which is negative for a negative time. */
  function Seconds(seconds: int): (s: int)
    ensures seconds >= 0 ==> 0 <= s < 60 && 60 * Minutes(seconds) + s == seconds
  {
    JsRemainder(seconds, 60)
  }

  /** A clock face: the minute field, a colon, the second field. */
  function Clock(mins: string, secs: string): string {
    mins + ":" + secs
  }

  /** The minute field: `${mins}`. For a non-negative time it is plain digits
      reading back as the whole minutes. */
  function MinuteField(seconds: int): (field: string)
    ensures |field| >= 1
    ensures seconds >= 0 ==> AllDigits(field) && 60 * ParseDigits(field) + Seconds(seconds) == seconds
  {
    IntToString(Minutes(seconds))
  }

  /** The second field: `secs.toString().padStart(2, "0")`. For a
      non-negative time it is exactly two digits reading back as the seconds. */
  function SecondField(seconds: int): (field: string)
    ensures seconds >= 0 ==> |field| == 2 && AllDigits(field) && ParseDigits(field) == Seconds(seconds)
  {
    PaddedSecondsRead(seconds);
    PadStart(IntToString(Seconds(seconds)), 2, '0')
  }

  /** Padding the seconds of a non-negative time to two places keeps their value. */
  lemma PaddedSecondsRead(seconds: int)
    ensures var field := PadStart(IntToString(Seconds(seconds)), 2, '0');
      seconds >= 0 ==> |field| == 2 && AllDigits(field) && ParseDigits(field) == Seconds(seconds)
  {
    if seconds >= 0 {
      var secs := IntToString(Seconds(seconds));
      if |secs| == 1 {
        assert PadStart(secs, 2, '0') == ['0'] + secs;
        ParseDigitsLeadingZero(secs);
      } else {
        assert PadStart(secs, 2, '0') == secs;
      }
    }
  }

  /** Reads an "m:ss" clock back into seconds. */
  function ParseTime(t: string): (r: Option<int>)
    ensures r.Some? ==> r.value >= 0
  {
    if |t| >= 4 && t[|t| - 3] == ':' && AllDigits(t[..|t| - 3]) && AllDigits(t[|t| - 2..])
       && ParseDigits(t[|t| - 2..]) < 60
    then Some(60 * ParseDigits(t[..|t| - 3]) + ParseDigits(t[|t| - 2..]))
    else None
  }

  /** A clock assembled from minute digits and two second digits reads back. */
  lemma ParseTimeOfParts(mins: string, secs: string)
    requires |mins| >= 1 && AllDigits(mins)
    requires |secs| == 2 && AllDigits(secs) && ParseDigits(secs) < 60
    ensures ParseTime(Clock(mins, secs)) == Some(60 * ParseDigits(mins) + ParseDigits(secs))
  {
    var t := Clock(mins, secs);
    assert |t| == |mins| + 3;
    assert t[|mins|] == ':';
    assert t[..|mins|] == mins;
    assert t[|mins| + 1..] == secs;
  }

  /** Digit fields whose value is `seconds` read back as `seconds`. */
  lemma ClockReadsBack(mins: string, secs: string, seconds: int)
    requires |mins| >= 1 && AllDigits(mins)
    requires |secs| == 2 && AllDigits(secs) && ParseDigits(secs) < 60
    requires 60 * ParseDigits(mins) + ParseDigits(secs) == seconds
    ensures ParseTime(Clock(mins, secs)) == Some(seconds)
  {
    ParseTimeOfParts(mins, secs);
  }

  /** The two fields of a non-negative time, joined by a colon, read back as
      that time. */
  lemma FieldsReadBack(seconds: int)
    ensures seconds >= 0 ==> ParseTime(Clock(MinuteField(seconds), SecondField(seconds))) == Some(seconds)
  {
    if seconds >= 0 {
      var mins, secs := MinuteField(seconds), SecondField(seconds);
      ClockReadsBack(mins, secs, seconds);
    }
  }

  /** `formatTime`: minutes, a colon, and the seconds padded to two digits.
      It loses nothing: every non-negative time reads back from its clock. */
  function FormatTime(seconds: int): (t: string)
    ensures seconds >= 0 ==> ParseTime(t) == Some(seconds)
  {
    FieldsReadBack(seconds);
    Clock(MinuteField(seconds), SecondField(seconds))
  }

  // ---------------------------------------------------------------------------
  // the page state

  /** The page's own state. */
  datatype Page = Page(
    transcript: string,
    isProcessing: bool,
    response: Option<ClaudeResponse>,
    showReaction: bool,
    showScore: bool,
    showAnalytics: bool)

  /** The global application state together with the page's own. */
  datatype Session = Session(app: AppState, page: Page)

  /** What the recording hook reports: elapsed whole seconds, the playback URL
      and whether an audio blob exists. */
  datatype Recorder = Recorder(recordingTime: int, audioUrl: Option<string>, hasAudioBlob: bool)

  /** The effect that mirrors the hook's recording flag into the global state:
      the flag itself, and 'recording' or 'idle' as the recording state. */
  function SyncRecording(s: AppState, isRecording: bool): (t: AppState)
    ensures t.isRecording == isRecording
    ensures t.recordingState == (if isRecording then Recording else Idle)
    ensures t.(isRecording := s.isRecording, recordingState := s.recordingState) == s
  {
    var flagged := AppContext.Reduce(s, AppContext.SetRecording(isRecording));
    AppContext.Reduce(flagged, AppContext.SetRecordingState(if isRecording then Recording else Idle))
  }

  /** Stopping a recording: the global state is marked 'processing', the
      transcript is graded with the recording's length as the duration, and
      the reaction starts to play. The page currently passes one fixed demo
      sentence as `transcript` in place of a real transcription. */
  function FinishRecording(ss: Session, rec: Recorder, transcript: string, d: MockGrader.Draws): (t: Session)
    requires MockGrader.ValidDraws(d)
    ensures t.app.recordingState == Processing && t.app.(recordingState := ss.app.recordingState) == ss.app
    ensures t.page.transcript == transcript && !t.page.isProcessing && t.page.showReaction
    ensures t.page.response == Some(MockGrader.AnalyzeJoke(transcript, rec.recordingTime as real, d))
    ensures IsReactionName(t.page.response.value.reaction) && MetricsInRange(t.page.response.value.metrics)
    ensures t.page.showScore == ss.page.showScore && t.page.showAnalytics == ss.page.showAnalytics
  {
    Session(
      AppContext.Reduce(ss.app, AppContext.SetRecordingState(Processing)),
      ss.page.(
        transcript := transcript,
        response := Some(MockGrader.AnalyzeJoke(transcript, rec.recordingTime as real, d)),
        isProcessing := false,
        showReaction := true))
  }

  /** The first timer: the score appears beside the reaction. */
  function RevealScore(ss: Session): (t: Session)
    ensures t.page.showScore && t.page.(showScore := ss.page.showScore) == ss.page && t.app == ss.app
  {
    ss.(page := ss.page.(showScore := true))
  }

  /** The second timer: reaction and score make way for the analytics modal,
      and the global state is marked 'complete'. */
  function RevealAnalytics(ss: Session): (t: Session)
    ensures !t.page.showReaction && !t.page.showScore && t.page.showAnalytics
    ensures t.page.(showReaction := ss.page.showReaction, showScore := ss.page.showScore,
                    showAnalytics := ss.page.showAnalytics) == ss.page
    ensures t.app.recordingState == Complete && t.app.(recordingState := ss.app.recordingState) == ss.app
  {
    Session(
      AppContext.Reduce(ss.app, AppContext.SetRecordingState(Complete)),
      ss.page.(showReaction := false, showScore := false, showAnalytics := true))
  }

  /** The modal as the page mounts it: open with `showAnalytics`, fed the
      verdict, its metrics and the recording's URL. It renders exactly when
      it is open with a verdict, and then shows that verdict. */
  function Modal(page: Page, rec: Recorder): (m: Option<AnalyticsModal.View>)
    ensures m.Some? <==> page.showAnalytics && page.response.Some?
    ensures m.Some? ==>
      && m.value.score == page.response.value.score
      && m.value.feedback == page.response.value.feedback
      && m.value.badge == AnalyticsModal.BadgeOf(page.response.value.reaction)
      && m.value.bars == AnalyticsModal.Bars(page.response.value.metrics)
      && (m.value.audio.Some? <==> Truthy(rec.audioUrl))
      && (m.value.audio.Some? ==> m.value.audio == rec.audioUrl)
  {
    AnalyticsModal.Render(
      page.showAnalytics,
      if page.response.Some? then Some(page.response.value.metrics) else None,
      page.response,
      rec.audioUrl)
  }

  /** Stopping and letting both timers fire ends 'complete', with the modal
      showing the verdict the grading produced. */
  lemma StopSequenceShowsVerdict(ss: Session, rec: Recorder, transcript: string, d: MockGrader.Draws)
    requires MockGrader.ValidDraws(d)
    ensures var t := RevealAnalytics(RevealScore(FinishRecording(ss, rec, transcript, d)));
      && t.app.recordingState == Complete
      && t.page.response == Some(MockGrader.AnalyzeJoke(transcript, rec.recordingTime as real, d))
      && Modal(t.page, rec).Some?
      && Modal(t.page, rec).value.score == t.page.response.value.score
  {
  }

  /** The modal's close button: only the modal flag drops, so the modal
      disappears and the verdict stays on the page. */
  function CloseModal(page: Page, rec: Recorder): (p: Page)
    ensures !p.showAnalytics && p.(showAnalytics := page.showAnalytics) == page
    ensures Modal(p, rec).None?
  {
    page.(showAnalytics := false)
  }

  /** Starting a new recording clears the transcript, the verdict and every
      display flag; the processing flag is left alone. */
  function StartRecording(page: Page): (p: Page)
    ensures p.transcript == "" && p.response.None?
    ensures !p.showReaction && !p.showScore && !p.showAnalytics
    ensures p.isProcessing == page.isProcessing
  {
    Page("", page.isProcessing, None, false, false, false)
  }

  /** Discarding clears the transcript, the verdict, the modal and the score;
      the reaction flag is left alone. */
  function Discard(page: Page): (p: Page)
    ensures p.transcript == "" && p.response.None? && !p.showScore && !p.showAnalytics
    ensures p.showReaction == page.showReaction && p.isProcessing == page.isProcessing
  {
    page.(transcript := "", response := None, showAnalytics := false, showScore := false)
  }

  // ---------------------------------------------------------------------------
  // saving and publishing

  /** The reaction counts recorded for a verdict: one for the matching reaction
      and none for crickets, which has no count. */
  function CountsFor(r: ClaudeResponse): (c: Reactions)
    ensures c.laughs == 1 <==> r.reaction == "laughs"
    ensures c.roses == 1 <==> r.reaction == "roses"
    ensures c.tomatoes == 1 <==> r.reaction == "tomatoes"
    ensures c.laughs in {0, 1} && c.roses in {0, 1} && c.tomatoes in {0, 1}
    ensures c.feedback == r.feedback && c.suggestion == r.suggestion
  {
    Reactions(
      if r.reaction == "laughs" then 1 else 0,
      if r.reaction == "roses" then 1 else 0,
      if r.reaction == "tomatoes" then 1 else 0,
      r.feedback,
      r.suggestion)
  }

  /** At most one count is set, and a crickets verdict sets none. */
  lemma CountsAtMostOne(r: ClaudeResponse)
    ensures var c := CountsFor(r); c.laughs + c.roses + c.tomatoes <= 1
    ensures r.reaction == "crickets" ==> CountsFor(r).laughs + CountsFor(r).roses + CountsFor(r).tomatoes == 0
    ensures IsReactionName(r.reaction) ==>
      (CountsFor(r).laughs + CountsFor(r).roses + CountsFor(r).tomatoes == 1 <==> r.reaction != "crickets")
  {
  }

  /** The three clock readings a handler makes: `Date.now()` for the id,
      `new Date()` for the creation time, and the locale date in the title. */
  datatype Stamps = Stamps(idMillis: int, created: int, dateLabel: string)

  /** `j` carries the page's transcript, the recording's length and URL, the
      verdict's metrics, feedback and suggestion unchanged, the counts the
      verdict's reaction gives, and the handler's clock readings. */
  predicate CopiedFrom(j: Joke, page: Page, rec: Recorder, user: Option<User>, st: Stamps)
    requires page.response.Some?
  {
    var r := page.response.value;
    && j.transcript == page.transcript
    && j.duration == rec.recordingTime
    && j.audioBlob == (if Truthy(rec.audioUrl) then rec.audioUrl.value else "")
    && j.metrics == r.metrics
    && j.reactions == CountsFor(r)
    && j.id == IntToString(st.idMillis) && j.createdAt == st.created
    && j.userId == (if user.Some? then user.value.id else "")
    && j.title == "Joke from " + st.dateLabel
  }

  /** The joke both handlers build from the page, differing only in `published`. */
  function BuildJoke(page: Page, rec: Recorder, user: Option<User>, st: Stamps, published: bool): (j: Joke)
    requires page.response.Some?
    ensures CopiedFrom(j, page, rec, user, st) && j.published == published
  {
    var r := page.response.value;
    Joke(
      IntToString(st.idMillis),
      if user.Some? then user.value.id else "",
      "Joke from " + st.dateLabel,
      if Truthy(rec.audioUrl) then rec.audioUrl.value else "",
      page.transcript,
      rec.recordingTime,
      st.created,
      published,
      r.metrics,
      CountsFor(r))
  }

  /** The guard shared by both handlers. */
  predicate CanKeep(page: Page, rec: Recorder) {
    rec.hasAudioBlob && page.response.Some?
  }

  /** `handleSave`: a draft joke is appended to the joke list. */
  function Save(s: AppState, page: Page, rec: Recorder, st: Stamps): (t: AppState)
    ensures !CanKeep(page, rec) ==> t == s
    ensures CanKeep(page, rec) ==>
      && |t.jokes| == |s.jokes| + 1 && t.jokes[..|s.jokes|] == s.jokes
      && !t.jokes[|s.jokes|].published
      && CopiedFrom(t.jokes[|s.jokes|], page, rec, s.user, st)
      && t.(jokes := s.jokes) == s
  {
    if !CanKeep(page, rec) then s
    else AppContext.Reduce(s, AppContext.AddJoke(BuildJoke(page, rec, s.user, st, false)))
  }

  /** `handlePublish`: a published joke is appended to the joke list. */
  function Publish(s: AppState, page: Page, rec: Recorder, st: Stamps): (t: AppState)
    ensures !CanKeep(page, rec) ==> t == s
    ensures CanKeep(page, rec) ==>
      && |t.jokes| == |s.jokes| + 1 && t.jokes[..|s.jokes|] == s.jokes
      && t.jokes[|s.jokes|].published
      && CopiedFrom(t.jokes[|s.jokes|], page, rec, s.user, st)
      && t.(jokes := s.jokes) == s
  {
    if !CanKeep(page, rec) then s
    else AppContext.Reduce(s, AppContext.AddJoke(BuildJoke(page, rec, s.user, st, true)))
  }

  /** Both handlers act exactly when there is audio and a verdict: otherwise
      the click does nothing, and with both it always adds a joke. */
  lemma KeepingNeedsAudioAndVerdict(s: AppState, page: Page, rec: Recorder, st: Stamps)
    ensures Save(s, page, rec, st) != s <==> CanKeep(page, rec)
    ensures Publish(s, page, rec, st) != s <==> CanKeep(page, rec)
  {
    if CanKeep(page, rec) {
      assert |Save(s, page, rec, st).jokes| != |s.jokes|;
      assert |Publish(s, page, rec, st).jokes| != |s.jokes|;
    }
  }

  /** Saving and publishing build the same joke apart from the published flag. */
  lemma SaveAndPublishDifferOnlyInFlag(s: AppState, page: Page, rec: Recorder, st: Stamps)
    requires CanKeep(page, rec)
    ensures var saved := Save(s, page, rec, st);
      var published := Publish(s, page, rec, st);
      published == saved.(jokes := saved.jokes[|s.jokes| := saved.jokes[|s.jokes|].(published := true)])
  {
  }

  /** Right after a new recording starts there is nothing to keep: saving and
      publishing change nothing. */
  lemma NothingToKeepAfterStart(s: AppState, page: Page, rec: Recorder, st: Stamps)
    ensures Save(s, StartRecording(page), rec, st) == s
    ensures Publish(s, StartRecording(page), rec, st) == s
  {
  }

  /** A joke kept from a local verdict has metrics in 0-100 and one count,
      unless the crowd answered with crickets. */
  lemma KeptLocalVerdict(ss: Session, rec: Recorder, transcript: string, d: MockGrader.Draws, st: Stamps)
    requires MockGrader.ValidDraws(d) && rec.hasAudioBlob
    ensures var t := FinishRecording(ss, rec, transcript, d);
      var j := Save(t.app, t.page, rec, st).jokes[|t.app.jokes|];
      && MetricsInRange(j.metrics)
      && ((j.reactions.laughs + j.reactions.roses + j.reactions.tomatoes == 1) <==>
            t.page.response.value.reaction != "crickets")
  {
    var t := FinishRecording(ss, rec, transcript, d);
    CountsAtMostOne(t.page.response.value);
  }
}

=== FILE: score_display.dfy ===
/** The score badge shown after a performance: a glow colour in four bands, a
    label in eight tiers, pulsing rings for good scores and a star burst for
    great ones. Animation timing is not modelled; only what is shown. */
module ScoreDisplay {

  /** The four glow gradients. */
  datatype Glow = GreenGlow | BlueGlow | YellowGlow | RedGlow

  /** Glows from worst (0) to best (3). */
  function GlowRank(g: Glow): nat {
    match g
    case RedGlow => 0
    case YellowGlow => 1
    case BlueGlow => 2
    case GreenGlow => 3
  }

  /** `getScoreColor`: bands of width 20 above 40, everything below 40 red. */
  function ScoreColor(score: real): (g: Glow)
    ensures GlowRank(g) > 0 ==> 20.0 + 20.0 * GlowRank(g) as real <= score
    ensures GlowRank(g) < 3 ==> score < 40.0 + 20.0 * GlowRank(g) as real
  {
    if score >= 80.0 then GreenGlow
    else if score >= 60.0 then BlueGlow
    else if score >= 40.0 then YellowGlow
    else RedGlow
  }

  /** A higher score never glows in a worse colour. */
  lemma ScoreColorMonotone(x: real, y: real)
    requires x <= y
    ensures GlowRank(ScoreColor(x)) <= GlowRank(ScoreColor(y))
  {
  }

  /** The eight labels, from best to worst. */
  datatype Tier = Legendary | Hilarious | GreatJob | GoodOne | NotBad | KeepTrying | NeedsWork | ToughCrowd

  function LabelText(t: Tier): string {
    match t
    case Legendary => "LEGENDARY!"
    case Hilarious => "HILARIOUS!"
    case GreatJob => "GREAT JOB!"
    case GoodOne => "GOOD ONE!"
    case NotBad => "NOT BAD!"
    case KeepTrying => "KEEP TRYING!"
    case NeedsWork => "NEEDS WORK"
    case ToughCrowd => "TOUGH CROWD"
  }

  /** Tiers from worst (0) to best (7). */
  function TierRank(t: Tier): nat {
    match t
    case ToughCrowd => 0
    case NeedsWork => 1
    case KeepTrying => 2
    case NotBad => 3
    case GoodOne => 4
    case GreatJob => 5
    case Hilarious => 6
    case Legendary => 7
  }

  /** `getScoreLabel`: tiers of width 10 from 30 up, with everything at 90 or
      above LEGENDARY and everything below 30 TOUGH CROWD. */
  function ScoreLabel(score: real): (t: Tier)
    ensures TierRank(t) > 0 ==> 20.0 + 10.0 * TierRank(t) as real <= score
    ensures TierRank(t) < 7 ==> score < 30.0 + 10.0 * TierRank(t) as real
  {
    if score >= 90.0 then Legendary
    else if score >= 80.0 then Hilarious
    else if score >= 70.0 then GreatJob
    else if score >= 60.0 then GoodOne
    else if score >= 50.0 then NotBad
    else if score >= 40.0 then KeepTrying
    else if score >= 30.0 then NeedsWork
    else ToughCrowd
  }

  /** Distinct tiers carry distinct label texts. */
  lemma LabelTextInjective(a: Tier, b: Tier)
    ensures LabelText(a) == LabelText(b) ==> a == b
  {
  }

  /** A higher score never gets a lower tier. */
  lemma ScoreLabelMonotone(x: real, y: real)
    requires x <= y
    ensures TierRank(ScoreLabel(x)) <= TierRank(ScoreLabel(y))
  {
  }

  /** The two ends of the label scale. */
  lemma ScoreLabelEnds(score: real)
    ensures ScoreLabel(score) == Legendary <==> score >= 90.0
    ensures ScoreLabel(score) == ToughCrowd <==> score < 30.0
  {
  }

  /** The colour that goes with each tier: every two tiers share a glow. */
  function GlowOfTier(t: Tier): (g: Glow)
    ensures TierRank(t) >= 6 <==> g == GreenGlow
    ensures TierRank(t) <= 1 <==> g == RedGlow
  {
    match t
    case Legendary | Hilarious => GreenGlow
    case GreatJob | GoodOne => BlueGlow
    case NotBad | KeepTrying => YellowGlow
    case NeedsWork | ToughCrowd => RedGlow
  }

  /** The glow is a coarsening of the label: the label alone decides it. */
  lemma ColorFollowsLabel(score: real)
    ensures ScoreColor(score) == GlowOfTier(ScoreLabel(score))
  {
  }

  /** The pulsing rings are drawn (`isVisible && score >= 60`): exactly when
      the score is visible and glows blue or green. */
  function ShowRings(visible: bool, score: real): (shown: bool)
    ensures shown <==> visible && GlowRank(ScoreColor(score)) >= 2
  {
    visible && score >= 60.0
  }

  /** The star burst is drawn (`isVisible && score >= 80`): exactly when the
      score is visible and glows green, and never without the rings. */
  function ShowStarBurst(visible: bool, score: real): (shown: bool)
    ensures shown <==> visible && ScoreColor(score) == GreenGlow
    ensures shown ==> ShowRings(visible, score)
  {
    visible && score >= 80.0
  }

  /** One star of the burst: its rotation in degrees and animation delay in seconds. */
  datatype Star = Star(rotation: int, delay: real)

  /** The eight stars of the burst. */
  function StarBurst(): (stars: seq<Star>)
    ensures |stars| == 8
    ensures stars[0] == Star(0, 0.0)
    ensures forall i :: 0 < i < |stars| ==>
      stars[i].rotation == stars[i - 1].rotation + 45 && stars[i].delay == stars[i - 1].delay + 0.1
    ensures stars[7].rotation + 45 == 360
  {
    seq(8, i requires 0 <= i < 8 => Star(i * 45, i as real * 0.1))
  }

  /** The stars point in eight distinct directions round the full circle. */
  lemma StarBurstDistinct(i: nat, j: nat)
    requires i < j < 8
    ensures 0 <= StarBurst()[i].rotation < StarBurst()[j].rotation < 360
  {
  }

  /** The value the counter animates towards. */
  function CountUpTarget(visible: bool, score: real): (target: real)
    ensures visible ==> target == score
    ensures !visible ==> target == 0.0
  {
    if visible then score else 0.0
  }

  /** The number shown once the counter settles (`Math.floor` of the animated
      value): the score itself for a visible whole-number score, 0 when hidden. */
  function SettledNumber(visible: bool, score: real): (n: int)
    ensures visible && score == score.Floor as real ==> n as real == score
    ensures !visible ==> n == 0
    ensures n as real <= CountUpTarget(visible, score) < n as real + 1.0
  {
    CountUpTarget(visible, score).Floor
  }
}

=== FILE: types.dfy ===
/** The records the app passes around: reactions, scores, jokes and the global
    application state. JavaScript numbers are reals (or integers where the app
    only ever stores whole numbers); `Date` values are millisecond timestamps. */
module Types {
  import opened Wrappers

  /** The four audience reactions a performance can draw. */
  datatype Reaction = Laughs | Roses | Tomatoes | Crickets

  /** The tag string the app stores and compares for each reaction. */
  function Name(r: Reaction): (tag: string) {
    match r
    case Laughs => "laughs"
    case Roses => "roses"
    case Tomatoes => "tomatoes"
    case Crickets => "crickets"
  }

  /** Reads a tag back; tags other than the four names are not reactions. */
  function ReactionOf(tag: string): (r: Option<Reaction>)
    ensures r.Some? ==> Name(r.value) == tag
  {
    if tag == "laughs" then Some(Laughs)
    else if tag == "roses" then Some(Roses)
    else if tag == "tomatoes" then Some(Tomatoes)
    else if tag == "crickets" then Some(Crickets)
    else None
  }

  /** Every reaction's tag reads back as that reaction, so distinct reactions
      have distinct tags. */
  lemma ReactionOfName(r: Reaction)
    ensures ReactionOf(Name(r)) == Some(r)
  {
  }

  lemma NameInjective(a: Reaction, b: Reaction)
    ensures Name(a) == Name(b) ==> a == b
  {
    ReactionOfName(a);
    ReactionOfName(b);
  }

  /** The tag names one of the four reactions. */
  predicate IsReactionName(tag: string) {
    ReactionOf(tag).Some?
  }

  /** Where the global recorder is in its cycle. */
  datatype RecordingState = Idle | Recording | Processing | Complete

  /** Four sub-scores of a performance; each is documented as lying in 0-100. */
  datatype JokeMetrics = JokeMetrics(
    stutterScore: real,
    quickWit: real,
    creativity: real,
    punchlineImpact: real)

  predicate InPercentRange(x: real) { 0.0 <= x <= 100.0 }

  /** The documented range of every metric. */
  predicate MetricsInRange(m: JokeMetrics) {
    && InPercentRange(m.stutterScore)
    && InPercentRange(m.quickWit)
    && InPercentRange(m.creativity)
    && InPercentRange(m.punchlineImpact)
  }

  /** Reaction counts stored with a joke, with the verdict's feedback. There is
      no count for crickets. */
  datatype Reactions = Reactions(
    laughs: int,
    roses: int,
    tomatoes: int,
    feedback: string,
    suggestion: Option<string>)

  /** A scoring verdict. `reaction` is kept as the raw tag string: the remote
      scorer passes whatever tag it received through unchecked. */
  datatype ClaudeResponse = ClaudeResponse(
    reaction: string,
    score: real,
    feedback: string,
    suggestion: Option<string>,
    metrics: JokeMetrics)

  /** The signed-in performer. `customAvatar` is written by the avatar update
      action although the declared record has no such field. */
  datatype User = User(
    id: string,
    username: string,
    avatarId: int,
    level: int,
    totalLaughs: int,
    totalRoses: int,
    followers: int,
    following: int,
    createdAt: int,
    customAvatar: Option<string>)

  /** A saved or published performance. `duration` is in whole seconds. */
  datatype Joke = Joke(
    id: string,
    userId: string,
    title: string,
    audioBlob: string,
    transcript: string,
    duration: int,
    createdAt: int,
    published: bool,
    metrics: JokeMetrics,
    reactions: Reactions)

  /** The global application state held by the reducer. */
  datatype AppState = AppState(
    user: Option<User>,
    currentJoke: Option<Joke>,
    jokes: seq<Joke>,
    isRecording: bool,
    recordingState: RecordingState)
}

=== FILE: wrappers.dfy ===
/** Optional values and success/failure results, used wherever the source has
    `undefined`/`null` fields or throws. */
module Wrappers {

  /** A value that may be absent (`undefined` or `null` in the source). */
  datatype Option<+T> = None | Some(value: T) {

    /** The present value, or `default` when there is none (`x ?? default`). */
    function GetOr(default: T): (r: T)
      ensures Some? ==> r == value
      ensures None? ==> r == default
    {
      match this
      case Some(v) => v
      case None => default
    }
  }

  /** The outcome of an operation that either returns a value or throws. */
  datatype Result<+R, +E> = Success(value: R) | Failure(error: E)
}
